=== FILE: README.md ===
# crawldown core in Dafny

crawldown crawls a website from a start URL. It converts the main content
of every page to Markdown and rewrites links between crawled pages so that
the resulting `.md` files can be read offline. This project models the
decisions at the heart of that pipeline and proves what they guarantee.

- **Link policy** (`linkpolicy.dfy`): which discovered `href`s the crawler
  hands to its collector. This covers the protocol skip list, the e-mail
  and phone heuristics, and the exclusion-prefix test.
- **Crawler** (`crawler.dfy`): option defaulting in `NewCrawler`,
  `normalizeURL`, and the two HTML callbacks as sequential updates of a
  crawl log (`query.dfy` holds the canonical query; `lexorder.dfy` the
  byte order of keys).
- **File names** (`filenames.dfy`): `sanitizeFilename` and
  `GenerateFilename`, the lossy map from a page URL to a local file name.
- **Markdown** (`markdown.dfy`): `Convert`'s empty-input guard and
  `cleanMarkdown`. The newline-run rewrite is proved equal to a reference
  definition of the regular expression's replacement.
- **Link localization** (`localizer.dfy`): `ConvertLinksToLocal`. It
  tokenizes Markdown into characters and `[text](target)` links. The tokens
  render back to the input exactly, and they are the regular expression's
  leftmost, non-overlapping matches. Each link token is then kept or
  retargeted to the indexed file `LocalTarget` picks for it.
- **Registry** (`registry.dfy`): the driver in `cmd/main.go`. It covers the
  start-URL choice and the page callback that fills the two maps (phase 1).
  It also covers the second pass, which rewrites every registered page
  against a snapshot of the file index (phase 2).

`wrappers.dfy` holds `Option` and `Result`. `strs.dfy` holds the few Go
`strings` operations used, with their own lemmas, such as split/join
inverses.

The page registry keeps the last writer. `cmd/main.go:144-163` assigns
both map entries unconditionally, so a later page with the same key
replaces an earlier one. `Registry.Phase1LastWriterWins` states that the
entry under a key comes from the last page with that key whose conversion
succeeded.

## Model

| member | source | states |
|---|---|---|
| LinkPolicy.LooksLikeEmailIff | src/crawler/crawler.go:277-284 | Split at its first '@' into local part and domain, a string looks like an e-mail exactly when both parts are non-empty, the domain has no further '@', and it holds a '.' |
| LinkPolicy.LooksLikePhoneIff | src/crawler/crawler.go:287-302 | A string looks like a phone number exactly when it has 7 to 15 ASCII digits and at least one of '+', '(', ')', '-' |
| LinkPolicy.PhoneIgnoresOtherChars | src/crawler/crawler.go:287-302 | Inserting a character that is neither a digit nor phone punctuation (a space, a letter, a dot) never changes the phone verdict |
| LinkPolicy.ClassifyHref | src/crawler/crawler.go:163-178 | An href is skipped as non-document exactly when it starts with one of the eight listed prefixes; it is skipped as contact data exactly when no prefix matches and it looks like an e-mail or phone number; otherwise it is followed |
| LinkPolicy.IsExcludedPath | src/crawler/crawler.go:255-274 | A URL is excluded exactly when prefixes are configured, the URL parses, and some prefix starts either `scheme://host/path` or the raw URL |
| LinkPolicy.ExclusionMonotone | src/crawler/crawler.go:267-271 | Adding exclusion prefixes never makes an excluded URL eligible again |
| LinkPolicy.ExclusionOrderIrrelevant | src/crawler/crawler.go:267-271 | Two prefix lists with the same members exclude the same URLs, whatever their order and repetitions |
| Crawler.WithDefaults | src/crawler/crawler.go:53-63 | A zero depth becomes 2, an empty user agent "CrawlDown/1.0" and a zero timeout 30 seconds; each keeps the caller's value when it was non-zero; every other option is untouched |
| Crawler.LimitRulesFor | src/crawler/crawler.go:82-98 | There is always a parallelism-2 rule without delay, and it is the only rule unless the delay is positive; then exactly one more rule follows, with parallelism 2, that delay, and half of it, rounded down, as random delay |
| Crawler.NewCrawler | src/crawler/crawler.go:47-112 | Construction fails with an invalid-URL error exactly when the start URL does not parse (the rate-limit error is left out); otherwise the collector gets the defaulted depth, agent and timeout, and the start host as its only domain unless domains are configured or external links are followed; robots.txt is set to be ignored when asked and otherwise left at the collector's default |
| Crawler.NormalizeUrlSortsQuery | src/crawler/crawler.go:241-252 | Normalizing changes only the query; the new query, read back, is sorted by key, holds the same values per key in the same order, and is the canonical encoding of what it reads back as |
| Crawler.NormalizeUrlOrderInsensitive | src/crawler/crawler.go:247-249 | URLs that differ only in the order of their query pairs normalize to the same string |
| Crawler.NormalizeUrlOfSorted | src/crawler/crawler.go:241-252 | A URL already printed canonically with a sorted, canonically encoded query is a fixed point of normalization |
| Crawler.OnAnchor | src/crawler/crawler.go:159-191 | In single-page mode there is no link handler; otherwise a link is visited exactly when the href policy follows it and its absolute form is not excluded, and it is visited as written |
| Crawler.VisitsOf | src/crawler/crawler.go:160-191 | The links a page hands to the collector are exactly the hrefs the link handler would visit: each one handed over is an href the handler visits, and each href it visits is handed over; in single-page mode there are none |
| Crawler.VisitsOfAppend | src/crawler/crawler.go:160-191 | The hand-over works href by href in document order: the links of two runs of anchors are the links of the first followed by those of the second |
| Crawler.VisitsOfOne | src/crawler/crawler.go:160-191 | A single href is handed over, as written, exactly when the link handler visits it |
| Crawler.OnHtml | src/crawler/crawler.go:137-191 | Each HTML response appends exactly its page, keeping earlier pages, and then exactly the links its link handler visits, in document order; in single-page mode no visit is added |
| Crawler.HandOversAreVisitedHrefs | src/crawler/crawler.go:158-191 | Over a whole run, a URL is handed to the collector after the start exactly when it is an href of some completed page that the link handler visits, so a skipped or excluded href is never handed over |
| Crawler.CrawlPages | src/crawler/crawler.go:137-150 | After a run, page i is the i-th completed response's normalized URL, title and content, and there is one page per response |
| Crawler.SinglePageOnlyStart | src/crawler/crawler.go:158-160 | In single-page mode no link is handed to the collector, so the start URL is the only URL it ever receives |
| Query.EncodeParseRoundTrip | src/crawler/crawler.go:248-249 | Parsing an encoded sequence of well-formed pairs gives back the same pairs |
| Query.NormalizeQuerySorted | src/crawler/crawler.go:248-249 | The normalized query reads back as the original pairs sorted stably by key: sorted, with each key's values unchanged and in order |
| Query.NormalizeQueryOrderInsensitive | src/crawler/crawler.go:248-249 | Queries with the same values per key normalize to the same text |
| Query.NormalizeQueryIdempotent | src/crawler/crawler.go:248-249 | Normalizing a normalized query changes nothing |
| Query.SortByKeyStable | src/crawler/crawler.go:249 | Sorting by key keeps every key's values in their original order |
| Query.SortedUnique | src/crawler/crawler.go:249 | Two key-sorted pair sequences with the same values per key are equal, so the encoded form is canonical |
| Filenames.Sanitize | src/converter/converter.go:193-211 | The result has no invalid character, no "--" and no '-' at either end; it is "page" when only invalid characters and dashes came in, and otherwise its non-dash characters are exactly the input's kept characters, in order |
| Filenames.SanitizeFixedIff | src/converter/converter.go:193-211 | Sanitizing leaves a string unchanged exactly when it is already a clean name |
| Filenames.SanitizeIsJoinOfWords | src/converter/converter.go:193-211 | The sanitized name is "page" when nothing is kept, and otherwise the input's words (maximal runs of characters that are neither invalid nor '-') joined by single dashes |
| Filenames.SanitizeIdempotent | src/converter/converter.go:193-211 | Sanitizing twice is the same as sanitizing once |
| Filenames.Ext | src/converter/converter.go:183-184 | The extension is empty or a '.'-led suffix with no further '.'; for a name without '/', it is empty exactly when the name has no '.' |
| Filenames.WithMdExtension | src/converter/converter.go:181-187 | The name ends in ".md" and gains no invalid character; a name already ending so is kept; for a name without '/', a dot-free name gets ".md" appended and otherwise the text from its last '.' on is replaced by ".md" |
| Filenames.RootFilename | src/converter/converter.go:154-164 | A root path gives "index.md" exactly when there is no query; with a query, the name is "index-" plus the sanitized query, plus ".md" unless the sanitized query already ends in ".md"; every result ends in ".md" with no invalid character |
| Filenames.GenerateFilename | src/converter/converter.go:145-190 | An unparsable URL gives "index.md"; every name ends in ".md" and holds no path separator or other invalid character |
| Filenames.FilenameKeepsPathText | src/converter/converter.go:166-187 | For a non-root path and query without '.', the name is "page.md" when nothing is kept, and otherwise a clean stem plus ".md"; the stem is the path's words followed by the query's words, joined by single dashes, so its non-dash characters are exactly the kept characters of path and query |
| Filenames.FilenamesCollide | src/converter/converter.go:166-179 | The nested path /a/b, the joined path /a-b and the path /a with query b all map to the same file name |
| Markdown.Convert | src/converter/converter.go:48-62 | Empty HTML is refused exactly; a library failure is passed on; otherwise the result is the library output after cleanMarkdown, so it is clean and keeps the library output's non-space characters in order |
| Markdown.CleanMarkdown | src/converter/converter.go:65-74 | The result has no three newlines in a row, no white space at either end, and the same non-space characters in the same order |
| Markdown.CleanMarkdownIsTrimOfReplace | src/converter/converter.go:65-74 | Cleaning is exactly the rewrite of every run of three or more newlines into two, followed by trimming white space at both ends |
| Markdown.CollapseIsReplaceLongRuns | src/converter/converter.go:67-68 | The left-to-right scan equals the regular-expression rewrite, which turns every maximal run of three or more newlines into two |
| Markdown.CleanMarkdownFixedIff | src/converter/converter.go:65-74 | Cleaning leaves a string unchanged exactly when it is already clean |
| Markdown.CleanMarkdownIdempotent | src/converter/converter.go:65-74 | Cleaning twice is the same as cleaning once |
| Localizer.MatchAt | src/converter/converter.go:84 | A match has a non-empty text without ']', a non-empty target without ')', and the input starts with exactly that link |
| Localizer.MatchAtComplete | src/converter/converter.go:84 | Conversely, wherever the input starts with a well-formed link, the pattern matches exactly that link |
| Localizer.Tokenize | src/converter/converter.go:84-85 | The tokens render back to the input exactly, and every link token has well-formed groups |
| Localizer.TokenizeLeftmost | src/converter/converter.go:84-85 | The tokens are the leftmost, non-overlapping matches: a character token stands where the pattern does not match, and a link token is exactly the match where it stands |
| Localizer.TokenizeUnique | src/converter/converter.go:84-85 | No other token sequence both renders to the input and is a leftmost scan of it |
| Localizer.LocalTarget | src/converter/converter.go:94-138 | Skipped or unparsable targets are kept; otherwise a link is rewritten exactly when its absolute form's key with the query, or failing that without it, is indexed, and then to that file with the fragment re-appended |
| Localizer.ConvertLinksToLocal | src/converter/converter.go:77-142 | An unparsable base leaves the Markdown unchanged; otherwise the result renders the input's tokens one for one, each passed through the link callback: text stays, a skipped link is kept, and any other link keeps its text and is retargeted to an indexed file or kept |
| Localizer.LinkRewrittenInPlace | src/converter/converter.go:84-141 | A well-formed link at the start of the document comes out first, with its text and with the target `LocalTarget` picks, or its own target when none is picked |
| Localizer.EmptyIndexIsIdentity | src/converter/converter.go:77-142 | With an empty file index the Markdown comes back unchanged |
| Registry.SelectStart | cmd/main.go:41-102 | A missing output directory or missing URLs are errors, exactly; otherwise the single-page URL takes precedence and selects single-page mode |
| Registry.EffectiveOptions | cmd/main.go:105-116 | The crawler runs with the command-line depth and timeout when non-zero (defaults otherwise), the fixed user agent, single-page mode as selected, and the start host as its only domain |
| Registry.RegistrationKey | cmd/main.go:141-142 | The key is the page URL with exactly one trailing '/' removed when it has one, and the URL itself when it has none |
| Registry.EntryFor | cmd/main.go:148-150 | A stored entry keeps the page URL and its generated file name; its Markdown is "# " and the title, a blank line, "URL: " and the page URL, a blank line, a "---" rule, a blank line, then the converted text |
| Registry.OnPage | cmd/main.go:123-164 | The counter always rises by one; a failed conversion leaves both maps alone; otherwise both maps hold the page's entry at its key, the two maps stay consistent, and no other key changes |
| Registry.Phase1 | cmd/main.go:123-164 | After phase 1 the two maps are consistent and the counter equals the number of crawled pages |
| Registry.Phase1Keys | cmd/main.go:123-164 | A key is registered after phase 1 exactly when some page with that key converted |
| Registry.Phase1LastWriterWins | cmd/main.go:144-163 | The entry and file under a key come from the last page with that key whose conversion succeeded |
| Registry.RenderAll | cmd/main.go:193-217 | Every snapshot key gets its rendering; the succeeded set is exactly the keys whose write succeeded, and the count is its size, at most the number of pages |
| Registry.SecondPass | cmd/main.go:182-217 | Every registered page is rewritten against the snapshot's file index, and the success count is the number of pages whose write succeeded |
| Registry.LinkToCrawledPageIsLocal | cmd/main.go:141-145 | An absolute link, without query or fragment, to a crawled page's key is rewritten to the file of the last page registered under that key |
| Registry.RegistrationMatchesLookup | cmd/main.go:142 | For a crawled page's URL, the registration key equals the lookup key when there is no query or the path does not end in '/'; when there is a query and the path ends in '/', it differs from both lookup keys, so links never find that page |

## Left out

- Traversal is left out: colly's frontier, visited set, depth limit, domain filter, asynchronous fetching, HTTP, robots.txt and logging. The model records which links are handed to the collector and takes the completed responses as a sequence in completion order.
- `extractMainContent` and the `<title>` extraction are fields of the response; the HTML-to-Markdown library is a function parameter of `Convert`.
- `url.Parse`, `ResolveReference` and `AbsoluteURL` are parameters (`UrlLib` and the response's `absolute`), so every property holds for any parser and resolver.
- `url.URL.String` omits user info, opaque URLs, the escaping of path and fragment, `ForceQuery` (Go keeps the '?' of `http://h/p?` with an empty query; the model drops it), the "./" Go prefixes to a relative path whose first segment holds a ':', and `OmitHost` (the model prints `http:///p` for a scheme with an empty host and a rooted path; Go prints `http:/p`).
- Crawler.HandOversAreVisitedHrefs: a hand-over is not a request. The link callback passes the href to `e.Request.Visit`; colly resolves it to an absolute URL and may then drop it as already visited, too deep, off-domain or disallowed by robots.txt. The model stops at the hand-over.
- Crawler.NewCrawler: the `failed to set rate limit` error at `src/crawler/crawler.go:94-97` is not modelled. colly's `Limit` is not part of this model; the model takes both `"*"` rules as accepted, so it never returns that error.
- Percent-decoding and percent-encoding in `ParseQuery` and `Encode` are treated as the identity.
- Crawler.NormalizeUrlOrderInsensitive: keys that differ only in escaping count as distinct. The model treats `a` and `%61` as two keys, so it equates `a=1&%61=2` with `%61=2&a=1`, while Go decodes both keys to `a` and keeps the value order, giving `a=1&a=2` and `a=2&a=1`.
- The `len(parts) != 3` branch of the link callback is not modelled: a match of a two-group pattern always has three parts.
- `urlToFileCopy` is taken once from the snapshot instead of per iteration. Nothing writes `urlToFile` during the second pass, so every copy equals the first.
- `filepath.Join`, `os.WriteFile` and `os.MkdirAll` are not modelled; the outcome of a write is the parameter `written`.
- The model does not cover `go-arg` parsing, exit codes or console output.
- Mutexes and concurrency are not modelled: callbacks run one at a time, in completion order.
- Filename collisions between distinct URLs are not resolved by the program; the model keeps that and `Filenames.FilenamesCollide` exhibits it. The last file written wins on disk, which is outside the model.
- Registry.RegistrationMatchesLookup: it is stated for URLs whose query does not end in '/'. For such a query, the trim of the registration key removes the query's last '/' rather than the path's.
- Filenames.FilenameKeepsPathText: it is stated only for paths and queries without '.'. With a '.', the extension step may drop text after the last dot.

=== FILE: crawler.dfy ===
/** The crawler of src/crawler/crawler.go with its traversal engine (colly)
    abstracted: option defaulting in NewCrawler, URL normalization, and the
    two HTML callbacks as sequential state updates. The collector's own
    frontier, visited set, depth limit and domain filter decide what happens
    to a link handed to it; the model records the hand-over. */
module Crawler {
  import opened Wrappers
  import opened Strs
  import opened Urls
  import opened Query
  import opened LinkPolicy

  datatype Options = Options(
    maxDepth: int,
    allowedDomains: seq<string>,
    userAgent: string,
    ignoreRobotsTxt: bool,
    followExternalLinks: bool,
    singlePage: bool,
    requestTimeout: int,
    requestDelay: int,
    excludedPaths: seq<string>)

  /** A colly LimitRule for DomainGlob "*"; delays in seconds. */
  datatype LimitRule = LimitRule(parallelism: nat, delay: int, randomDelay: int)

  /** What NewCrawler configures on the collector. `ignoreRobotsTxt` is
      None where NewCrawler leaves colly's own default in place. */
  datatype Collector = Collector(
    maxDepth: int,
    allowedDomains: seq<string>,
    userAgent: string,
    requestTimeout: int,
    limitRules: seq<LimitRule>,
    ignoreRobotsTxt: Option<bool>)

  datatype Crawler = Crawler(collector: Collector, baseUrl: Url, options: Options)

  datatype CrawlerError = InvalidUrl

  const DefaultMaxDepth: int := 2
  const DefaultUserAgent: string := "CrawlDown/1.0"
  const DefaultRequestTimeout: int := 30
  const Parallelism: nat := 2

  /** The zero-value defaulting at the top of NewCrawler. */
  function WithDefaults(opts: Options): (r: Options)
    ensures r.maxDepth != 0 && r.userAgent != "" && r.requestTimeout != 0
    ensures opts.maxDepth == 0 ==> r.maxDepth == DefaultMaxDepth
    ensures opts.userAgent == "" ==> r.userAgent == DefaultUserAgent
    ensures opts.requestTimeout == 0 ==> r.requestTimeout == DefaultRequestTimeout
    ensures opts.maxDepth != 0 ==> r.maxDepth == opts.maxDepth
    ensures opts.userAgent != "" ==> r.userAgent == opts.userAgent
    ensures opts.requestTimeout != 0 ==> r.requestTimeout == opts.requestTimeout
    ensures r.(maxDepth := opts.maxDepth, userAgent := opts.userAgent, requestTimeout := opts.requestTimeout) == opts
  {
    opts.(
      maxDepth := if opts.maxDepth == 0 then DefaultMaxDepth else opts.maxDepth,
      userAgent := if opts.userAgent == "" then DefaultUserAgent else opts.userAgent,
      requestTimeout := if opts.requestTimeout == 0 then DefaultRequestTimeout else opts.requestTimeout)
  }

  /** The domains handed to the collector: the start host alone when none
      are configured and external links are not followed. */
  function AllowedDomainsFor(opts: Options, start: Url): (r: seq<string>)
    ensures |opts.allowedDomains| == 0 && !opts.followExternalLinks ==> r == [start.host]
    ensures |opts.allowedDomains| > 0 || opts.followExternalLinks ==> r == opts.allowedDomains
  {
    if |opts.allowedDomains| == 0 && !opts.followExternalLinks then [start.host] else opts.allowedDomains
  }

  /** The limit rules: always parallelism 2; a positive delay adds a second
      rule with that delay and half of it (rounded down) as random delay. */
  function LimitRulesFor(delay: int): (r: seq<LimitRule>)
    ensures |r| == if delay > 0 then 2 else 1
    ensures r[0] == LimitRule(Parallelism, 0, 0)
    ensures delay > 0 ==> r[1].parallelism == Parallelism
    ensures delay > 0 ==> r[1].delay == delay && 0 <= 2 * r[1].randomDelay <= delay < 2 * r[1].randomDelay + 2
  {
    if delay > 0 then [LimitRule(Parallelism, 0, 0), LimitRule(Parallelism, delay, delay / 2)]
    else [LimitRule(Parallelism, 0, 0)]
  }

  /** NewCrawler: an unparsable start URL is an error; otherwise the
      options get their defaults and the collector is configured from them.
      The robots.txt setting is only ever switched on, never off. */
  function NewCrawler(lib: UrlLib, startUrl: string, opts: Options): (r: Result<Crawler, CrawlerError>)
    ensures lib.parse(startUrl).None? <==> r == Failure(InvalidUrl)
    ensures r.Success? ==>
      var c := r.value;
      && c.baseUrl == lib.parse(startUrl).value
      && c.options == WithDefaults(opts)
      && c.collector.maxDepth == c.options.maxDepth
      && c.collector.userAgent == c.options.userAgent
      && c.collector.requestTimeout == c.options.requestTimeout
      && c.collector.allowedDomains == AllowedDomainsFor(opts, c.baseUrl)
      && c.collector.limitRules == LimitRulesFor(c.options.requestDelay)
      && (opts.ignoreRobotsTxt ==> c.collector.ignoreRobotsTxt == Some(true))
      && (!opts.ignoreRobotsTxt ==> c.collector.ignoreRobotsTxt.None?)
  {
    match lib.parse(startUrl)
    case None => Failure(InvalidUrl)
    case Some(u) =>
      var o := WithDefaults(opts);
      var collector := Collector(
        o.maxDepth, AllowedDomainsFor(o, u), o.userAgent, o.requestTimeout,
        LimitRulesFor(o.requestDelay), if o.ignoreRobotsTxt then Some(true) else None);
      Success(Crawler(collector, u, o))
  }

  // ---------------------------------------------------------------------
  // normalizeURL

  /** normalizeURL: an unparsable URL comes back unchanged; otherwise the
      URL is re-serialized with its query in canonical sorted form. */
  function NormalizeUrl(lib: UrlLib, raw: string): (r: string)
    ensures lib.parse(raw).None? ==> r == raw
  {
    match lib.parse(raw)
    case None => raw
    case Some(u) => Serialize(u.(rawQuery := NormalizeQuery(u.rawQuery)))
  }

  /** Only the query changes, and it changes into a key-sorted query with
      the same values per key. */
  lemma NormalizeUrlSortsQuery(lib: UrlLib, raw: string)
    requires lib.parse(raw).Some?
    ensures var u := lib.parse(raw).value;
      exists q: string ::
        && NormalizeUrl(lib, raw) == Serialize(u.(rawQuery := q))
        && SortedByKey(ParseQuery(q))
        && EncodeQuery(ParseQuery(q)) == q
        && forall key :: Values(ParseQuery(q), key) == Values(ParseQuery(u.rawQuery), key)
  {
    var u := lib.parse(raw).value;
    NormalizeQuerySorted(u.rawQuery);
    var q := NormalizeQuery(u.rawQuery);
    assert NormalizeUrl(lib, raw) == Serialize(u.(rawQuery := q));
  }

  /** URLs that differ only in the order of their query pairs (per key the
      same values in the same order) normalize to the same string. */
  lemma NormalizeUrlOrderInsensitive(lib: UrlLib, a: string, b: string)
    requires lib.parse(a).Some? && lib.parse(b).Some?
    requires lib.parse(a).value.(rawQuery := "") == lib.parse(b).value.(rawQuery := "")
    requires forall key ::
      Values(ParseQuery(lib.parse(a).value.rawQuery), key) == Values(ParseQuery(lib.parse(b).value.rawQuery), key)
    ensures NormalizeUrl(lib, a) == NormalizeUrl(lib, b)
  {
    var u, v := lib.parse(a).value, lib.parse(b).value;
    NormalizeQueryOrderInsensitive(u.rawQuery, v.rawQuery);
    assert u.(rawQuery := NormalizeQuery(u.rawQuery)) == v.(rawQuery := NormalizeQuery(v.rawQuery));
  }

  /** A URL printed in canonical form with an already sorted query is a
      fixed point. */
  lemma NormalizeUrlOfSorted(lib: UrlLib, raw: string)
    requires lib.parse(raw).Some?
    requires Serialize(lib.parse(raw).value) == raw
    requires SortedByKey(ParseQuery(lib.parse(raw).value.rawQuery))
    requires EncodeQuery(ParseQuery(lib.parse(raw).value.rawQuery)) == lib.parse(raw).value.rawQuery
    ensures NormalizeUrl(lib, raw) == raw
  {
    var u := lib.parse(raw).value;
    NormalizeQueryOfSorted(u.rawQuery);
    assert u.(rawQuery := NormalizeQuery(u.rawQuery)) == u;
  }

  // ---------------------------------------------------------------------
  // The HTML callbacks

  datatype Page = Page(url: string, title: string, content: string)

  /** One HTML response as the callbacks see it: the request URL, the
      `<title>` text, the extracted main content, the `href` of every
      `a[href]` element in document order, and colly's AbsoluteURL for this
      request. */
  datatype HtmlResponse = HtmlResponse(
    requestUrl: string,
    title: string,
    mainContent: string,
    hrefs: seq<string>,
    absolute: string -> string)

  /** What happens to one href. `NoHandler`: single-page mode registers no
      `a[href]` callback. */
  datatype AnchorOutcome = NoHandler | Skipped(hrefClass: HrefClass) | Excluded | Visit(link: string)

  /** The `a[href]` handler. */
  function OnAnchor(c: Crawler, lib: UrlLib, absolute: string -> string, href: string): (r: AnchorOutcome)
    ensures c.options.singlePage <==> r == NoHandler
    ensures r.Visit? <==>
      !c.options.singlePage && ClassifyHref(href) == Follow
      && !IsExcludedPath(lib, c.options.excludedPaths, absolute(href))
    ensures r.Visit? ==> r.link == href
    ensures r.Excluded? ==> ClassifyHref(href) == Follow
  {
    if c.options.singlePage then NoHandler
    else
      match ClassifyHref(href)
      case Follow =>
        if IsExcludedPath(lib, c.options.excludedPaths, absolute(href)) then Excluded else Visit(href)
      case other => Skipped(other)
  }

  /** The links of one page handed to the collector, in document order:
      exactly the hrefs the anchor callback decides to visit. */
  function VisitsOf(c: Crawler, lib: UrlLib, resp: HtmlResponse, hrefs: seq<string>): (r: seq<string>)
    ensures |r| <= |hrefs|
    ensures c.options.singlePage ==> r == []
    ensures forall i :: 0 <= i < |r| ==>
      r[i] in hrefs && OnAnchor(c, lib, resp.absolute, r[i]) == Visit(r[i])
    ensures forall i :: 0 <= i < |hrefs| && OnAnchor(c, lib, resp.absolute, hrefs[i]).Visit? ==>
      hrefs[i] in r
  {
    if |hrefs| == 0 then []
    else
      var rest := VisitsOf(c, lib, resp, hrefs[1..]);
      match OnAnchor(c, lib, resp.absolute, hrefs[0])
      case Visit(link) => [link] + rest
      case _ => rest
  }

  /** VisitsOf is an order-preserving filter: it works href by href ... */
  lemma {:induction false} VisitsOfAppend(c: Crawler, lib: UrlLib, resp: HtmlResponse, a: seq<string>, b: seq<string>)
    ensures VisitsOf(c, lib, resp, a + b) == VisitsOf(c, lib, resp, a) + VisitsOf(c, lib, resp, b)
  {
    if |a| > 0 {
      assert (a + b)[1..] == a[1..] + b;
      assert (a + b)[0] == a[0];
      VisitsOfAppend(c, lib, resp, a[1..], b);
    } else {
      assert a + b == b;
    }
  }

  /** ... and keeps one href exactly when the anchor callback visits it. */
  lemma VisitsOfOne(c: Crawler, lib: UrlLib, resp: HtmlResponse, href: string)
    ensures VisitsOf(c, lib, resp, [href]) ==
      if OnAnchor(c, lib, resp.absolute, href) == Visit(href) then [href] else []
  {
    assert [href][1..] == [];
  }

  /** The page the `html` callback appends and passes to the page callback. */
  function PageOf(lib: UrlLib, resp: HtmlResponse): Page {
    Page(NormalizeUrl(lib, resp.requestUrl), resp.title, resp.mainContent)
  }

  /** The crawler's record of a run so far: the page list and the links
      handed to the collector. */
  datatype CrawlLog = CrawlLog(pages: seq<Page>, visits: seq<string>)

  /** Both callbacks for one response: colly runs the `html` callback
      (append one page) before the `a[href]` callbacks. */
  function OnHtml(c: Crawler, lib: UrlLib, log: CrawlLog, resp: HtmlResponse): (r: CrawlLog)
    ensures r.pages == log.pages + [PageOf(lib, resp)]
    ensures c.options.singlePage ==> r.visits == log.visits
    ensures r.visits == log.visits + VisitsOf(c, lib, resp, resp.hrefs)
  {
    CrawlLog(log.pages + [PageOf(lib, resp)], log.visits + VisitsOf(c, lib, resp, resp.hrefs))
  }

  /** A run over the HTML responses in the order they complete. */
  function Crawl(c: Crawler, lib: UrlLib, resps: seq<HtmlResponse>): CrawlLog {
    if |resps| == 0 then CrawlLog([], [])
    else OnHtml(c, lib, Crawl(c, lib, resps[..|resps| - 1]), resps[|resps| - 1])
  }

  /** The URLs handed to the collector: Start hands over the base URL, and
      every other hand-over comes from a link callback. The collector may
      still drop any of them before making a request. */
  function HandOvers(c: Crawler, lib: UrlLib, resps: seq<HtmlResponse>): seq<string> {
    [Serialize(c.baseUrl)] + Crawl(c, lib, resps).visits
  }

  /** Each HTML completion appends exactly one page, carrying the
      normalized request URL; earlier pages are never touched. */
  lemma {:induction false} CrawlPages(c: Crawler, lib: UrlLib, resps: seq<HtmlResponse>)
    ensures |Crawl(c, lib, resps).pages| == |resps|
    ensures forall i :: 0 <= i < |resps| ==>
      Crawl(c, lib, resps).pages[i] == Page(NormalizeUrl(lib, resps[i].requestUrl), resps[i].title, resps[i].mainContent)
  {
    if |resps| > 0 {
      var init := resps[..|resps| - 1];
      CrawlPages(c, lib, init);
      forall i | 0 <= i < |resps| - 1
        ensures init[i] == resps[i]
      {
      }
    }
  }

  /** In single-page mode no link is ever handed to the collector, so the
      start URL is the only URL it receives. */
  lemma {:induction false} SinglePageOnlyStart(c: Crawler, lib: UrlLib, resps: seq<HtmlResponse>)
    requires c.options.singlePage
    ensures Crawl(c, lib, resps).visits == []
    ensures HandOvers(c, lib, resps) == [Serialize(c.baseUrl)]
  {
    if |resps| > 0 {
      SinglePageOnlyStart(c, lib, resps[..|resps| - 1]);
    }
  }

  /** Whether `resp` hands `v` to the collector: one of its hrefs that the
      link handler visits. */
  predicate HandedOver(c: Crawler, lib: UrlLib, resp: HtmlResponse, v: string) {
    v in resp.hrefs && OnAnchor(c, lib, resp.absolute, v) == Visit(v)
  }

  lemma VisitsOfMembership(c: Crawler, lib: UrlLib, resp: HtmlResponse, v: string)
    ensures v in VisitsOf(c, lib, resp, resp.hrefs) <==> HandedOver(c, lib, resp, v)
  {
    var r := VisitsOf(c, lib, resp, resp.hrefs);
    if v in r {
      var i :| 0 <= i < |r| && r[i] == v;
    }
    if HandedOver(c, lib, resp, v) {
      var i :| 0 <= i < |resp.hrefs| && resp.hrefs[i] == v;
    }
  }

  /** Every URL handed to the collector after the start is an href of some
      completed page that the link handler visits, and every such href is
      handed over: a skipped or excluded href never is. */
  lemma HandOversAreVisitedHrefs(c: Crawler, lib: UrlLib, resps: seq<HtmlResponse>, v: string)
    ensures v in HandOvers(c, lib, resps)[1..] <==>
      exists j :: 0 <= j < |resps| && HandedOver(c, lib, resps[j], v)
  {
    assert HandOvers(c, lib, resps)[1..] == Crawl(c, lib, resps).visits;
    CrawlVisitsHandedOver(c, lib, resps, v);
  }

  lemma {:induction false} CrawlVisitsHandedOver(c: Crawler, lib: UrlLib, resps: seq<HtmlResponse>, v: string)
    ensures v in Crawl(c, lib, resps).visits <==>
      exists j :: 0 <= j < |resps| && HandedOver(c, lib, resps[j], v)
  {
    if |resps| > 0 {
      var init := resps[..|resps| - 1];
      var last := resps[|resps| - 1];
      CrawlVisitsHandedOver(c, lib, init, v);
      VisitsOfMembership(c, lib, last, v);
      assert Crawl(c, lib, resps).visits == Crawl(c, lib, init).visits + VisitsOf(c, lib, last, last.hrefs);
      HandedOverSplit(c, lib, resps, init, v);
    }
  }

  lemma HandedOverSplit(c: Crawler, lib: UrlLib, resps: seq<HtmlResponse>, init: seq<HtmlResponse>, v: string)
    requires |resps| > 0 && init == resps[..|resps| - 1]
    ensures (exists j :: 0 <= j < |resps| && HandedOver(c, lib, resps[j], v)) <==>
      (exists j :: 0 <= j < |init| && HandedOver(c, lib, init[j], v))
      || HandedOver(c, lib, resps[|resps| - 1], v)
  {
    if exists j :: 0 <= j < |resps| && HandedOver(c, lib, resps[j], v) {
      var j :| 0 <= j < |resps| && HandedOver(c, lib, resps[j], v);
      if j < |init| {
        assert init[j] == resps[j];
      }
    }
    if exists j :: 0 <= j < |init| && HandedOver(c, lib, init[j], v) {
      var j :| 0 <= j < |init| && HandedOver(c, lib, init[j], v);
      assert resps[j] == init[j];
    }
  }
}

=== FILE: filenames.dfy ===
/** sanitizeFilename and GenerateFilename of src/converter/converter.go: the
    deterministic, lossy map from a page URL to a local `*.md` file name. */
module Filenames {
  import opened Wrappers
  import opened Strs
  import opened Urls

  /** The class `[<>:"/\\|?*=&]` of sanitizeFilename. */
  predicate IsInvalidChar(c: char) {
    c == '<' || c == '>' || c == ':' || c == '"' || c == '/' || c == '\\'
    || c == '|' || c == '?' || c == '*' || c == '=' || c == '&'
  }

  predicate NoInvalidChars(s: string) {
    forall i :: 0 <= i < |s| ==> !IsInvalidChar(s[i])
  }

  predicate DashPairAt(s: string, i: nat)
    requires i + 1 < |s|
  {
    s[i] == '-' && s[i + 1] == '-'
  }

  predicate NoDoubleDash(s: string) {
    forall i: nat :: i + 1 < |s| ==> !DashPairAt(s, i)
  }

  /** What sanitizeFilename guarantees of its result. */
  predicate IsCleanName(s: string) {
    s != "" && NoInvalidChars(s) && NoDoubleDash(s) && s[0] != '-' && s[|s| - 1] != '-'
  }

  /** The characters of `s` other than '-', in order. */
  function NonDash(s: string): string {
    if |s| == 0 then "" else (if s[0] == '-' then "" else [s[0]]) + NonDash(s[1..])
  }

  /** The characters of `s` sanitizeFilename lets through unchanged and does
      not treat as separators: neither invalid nor '-'. */
  function Kept(s: string): string {
    if |s| == 0 then ""
    else (if s[0] == '-' || IsInvalidChar(s[0]) then "" else [s[0]]) + Kept(s[1..])
  }

  /** Step 1: every invalid character becomes '-'. */
  function ReplaceInvalid(s: string): (r: string)
    ensures |r| == |s|
    ensures forall i :: 0 <= i < |s| ==> r[i] == (if IsInvalidChar(s[i]) then '-' else s[i])
  {
    if |s| == 0 then "" else [if IsInvalidChar(s[0]) then '-' else s[0]] + ReplaceInvalid(s[1..])
  }

  /** Step 2: every run of '-' becomes a single '-'. */
  function CollapseDashes(s: string): (r: string)
    ensures NoDoubleDash(r)
    ensures NonDash(r) == NonDash(s)
    ensures NoInvalidChars(s) ==> NoInvalidChars(r)
    ensures |s| == 0 <==> |r| == 0
    ensures |s| > 0 ==> r[0] == s[0]
  {
    if |s| == 0 then ""
    else if |s| >= 2 && s[0] == '-' && s[1] == '-' then CollapseDashes(s[1..])
    else
      var rest := CollapseDashes(s[1..]);
      var r := [s[0]] + rest;
      assert r[1..] == rest;
      assert NonDash(r) == (if s[0] == '-' then "" else [s[0]]) + NonDash(rest);
      assert forall i: nat :: 0 < i && i + 1 < |r| ==> (DashPairAt(r, i) <==> DashPairAt(rest, i - 1));
      r
  }

  /** Step 3, first half: leading '-' removed. */
  function TrimLeftDash(s: string): (r: string)
    ensures |r| == 0 || r[0] != '-'
    ensures NonDash(r) == NonDash(s)
    ensures NoDoubleDash(s) ==> NoDoubleDash(r)
    ensures NoInvalidChars(s) ==> NoInvalidChars(r)
    ensures |s| > 0 && s[|s| - 1] != '-' ==> |r| > 0 && r[|r| - 1] == s[|s| - 1]
  {
    if |s| > 0 && s[0] == '-' then
      DropFirstDash(s);
      TrimLeftDash(s[1..])
    else s
  }

  lemma DropFirstDash(s: string)
    requires |s| > 0 && s[0] == '-'
    ensures NonDash(s[1..]) == NonDash(s)
    ensures NoDoubleDash(s) ==> NoDoubleDash(s[1..])
    ensures NoInvalidChars(s) ==> NoInvalidChars(s[1..])
    ensures |s| > 1 ==> s[1..][|s| - 2] == s[|s| - 1]
  {
    assert forall i: nat :: i + 1 < |s| - 1 ==> (DashPairAt(s[1..], i) <==> DashPairAt(s, i + 1));
  }

  /** Step 3, second half: trailing '-' removed. */
  function TrimRightDash(s: string): (r: string)
    ensures |r| == 0 || r[|r| - 1] != '-'
    ensures NonDash(r) == NonDash(s)
    ensures NoDoubleDash(s) ==> NoDoubleDash(r)
    ensures NoInvalidChars(s) ==> NoInvalidChars(r)
    ensures |s| > 0 && s[0] != '-' ==> |r| > 0 && r[0] == s[0]
  {
    if |s| > 0 && s[|s| - 1] == '-' then
      var init := s[..|s| - 1];
      NonDashAppend(init, "-");
      assert s == init + "-";
      assert forall i: nat :: i + 1 < |init| ==> (DashPairAt(init, i) <==> DashPairAt(s, i));
      TrimRightDash(init)
    else s
  }

  /** strings.Trim(s, "-") */
  function TrimDashes(s: string): (r: string)
    ensures |r| == 0 || (r[0] != '-' && r[|r| - 1] != '-')
    ensures NonDash(r) == NonDash(s)
    ensures NoDoubleDash(s) ==> NoDoubleDash(r)
    ensures NoInvalidChars(s) ==> NoInvalidChars(r)
  {
    TrimRightDash(TrimLeftDash(s))
  }

  /** sanitizeFilename: the result is a clean name; it is "page" when
      nothing but invalid characters and dashes came in, and otherwise
      keeps exactly the characters that are neither, in order. */
  function Sanitize(s: string): (r: string)
    ensures IsCleanName(r)
    ensures Kept(s) == "" ==> r == "page"
    ensures Kept(s) != "" ==> NonDash(r) == Kept(s)
  {
    var replaced := ReplaceInvalid(s);
    KeptIsNonDashOfReplaced(s);
    var collapsed := CollapseDashes(replaced);
    var trimmed := TrimDashes(collapsed);
    assert NonDash(trimmed) == Kept(s);
    if trimmed == "" then
      PageIsClean();
      "page"
    else
      NonDashHead(trimmed);
      trimmed
  }

  // ---------------------------------------------------------------------
  // Words: an independent description of sanitizeFilename

  /** The characters sanitizeFilename treats as word breaks. */
  predicate IsSeparator(c: char) {
    c == '-' || IsInvalidChar(c)
  }

  predicate NoSeparator(w: string) {
    forall j :: 0 <= j < |w| ==> !IsSeparator(w[j])
  }

  /** The maximal runs of non-separator characters of `s`, in order (see
      WordsAreRuns). */
  function Words(s: string): (ws: seq<string>)
    ensures |s| > 0 && !IsSeparator(s[0]) ==> |ws| > 0 && |ws[0]| > 0 && ws[0][0] == s[0]
  {
    if |s| == 0 then []
    else
      var rest := Words(s[1..]);
      if IsSeparator(s[0]) then rest
      else if |s| > 1 && !IsSeparator(s[1]) then [[s[0]] + rest[0]] + rest[1..]
      else [[s[0]]] + rest
  }

  /** Every word is a non-empty run free of separators. */
  lemma {:induction false} WordsAreRuns(s: string)
    ensures forall i :: 0 <= i < |Words(s)| ==> Words(s)[i] != "" && NoSeparator(Words(s)[i])
  {
    if |s| > 0 {
      var rest := Words(s[1..]);
      WordsAreRuns(s[1..]);
      if !IsSeparator(s[0]) && |s| > 1 && !IsSeparator(s[1]) {
        var w := [s[0]] + rest[0];
        assert NoSeparator(rest[0]);
        assert forall j :: 0 < j < |w| ==> w[j] == rest[0][j - 1];
        assert Words(s) == [w] + rest[1..];
      }
    }
  }

  // ---------------------------------------------------------------------
  // GenerateFilename

  /** filepath.Ext on a Unix path, scanning back from index `i`: the suffix
      from the last '.' after the last '/', or "". */
  function ExtScan(path: string, i: nat): (r: string)
    requires i <= |path|
    requires forall j :: i <= j < |path| ==> path[j] != '.' && path[j] != '/'
    ensures r == "" || (r[0] == '.' && HasSuffix(path, r) && '.' !in r[1..])
    ensures '/' !in path[..i] ==> (r == "" <==> '.' !in path[..i])
    decreases i
  {
    if i == 0 then ""
    else if path[i - 1] == '/' then ""
    else if path[i - 1] == '.' then
      assert path[i - 1..][1..] == path[i..];
      path[i - 1..]
    else
      assert path[..i - 1] == path[..i][..i - 1];
      ExtScan(path, i - 1)
  }

  function Ext(path: string): (r: string)
    ensures r == "" || (r[0] == '.' && HasSuffix(path, r) && '.' !in r[1..])
    ensures '/' !in path ==> (r == "" <==> '.' !in path)
  {
    assert path[..|path|] == path;
    ExtScan(path, |path|)
  }

  /** The final step of GenerateFilename: names already ending in ".md" are
      kept; otherwise the extension after the last '.' is dropped and ".md"
      appended. */
  function WithMdExtension(name: string): (r: string)
    ensures HasSuffix(r, ".md")
    ensures HasSuffix(name, ".md") ==> r == name
    ensures !HasSuffix(name, ".md") && '.' !in name && '/' !in name ==> r == name + ".md"
    ensures !HasSuffix(name, ".md") && '.' in name && '/' !in name ==>
      exists k :: 0 <= k < |name| && name[k] == '.' && '.' !in name[k + 1..] && r == name[..k] + ".md"
    ensures NoInvalidChars(name) ==> NoInvalidChars(r)
  {
    if HasSuffix(name, ".md") then name
    else
      var ext := Ext(name);
      if ext != "" then
        var k := |name| - |ext|;
        var stem := TrimSuffix(name, ext);
        assert stem == name[..k];
        assert name[k] == '.' && name[k + 1..] == ext[1..];
        MdAppended(stem, name);
        stem + ".md"
      else
        MdAppended(name, name);
        name + ".md"
  }

  lemma MdAppended(stem: string, name: string)
    requires |stem| <= |name| && stem == name[..|stem|]
    ensures HasSuffix(stem + ".md", ".md")
    ensures NoInvalidChars(name) ==> NoInvalidChars(stem + ".md")
  {
    IndexPrefixClean();
    NoInvalidCharsAppend(stem, ".md");
    if NoInvalidChars(name) {
      assert forall i :: 0 <= i < |stem| ==> stem[i] == name[i];
    }
  }

  /** The root-path branch of GenerateFilename: "index.md", or "index-"
      plus the sanitized query. */
  function RootFilename(rawQuery: string): (r: string)
    ensures HasSuffix(r, ".md")
    ensures NoInvalidChars(r)
    ensures rawQuery == "" <==> r == "index.md"
    ensures rawQuery != "" && HasSuffix(Sanitize(rawQuery), ".md") ==> r == "index-" + Sanitize(rawQuery)
    ensures rawQuery != "" && !HasSuffix(Sanitize(rawQuery), ".md") ==> r == "index-" + Sanitize(rawQuery) + ".md"
    ensures rawQuery != "" && '.' !in rawQuery ==> r == "index-" + Sanitize(rawQuery) + ".md"
  {
    if rawQuery != "" then
      var name := "index-" + Sanitize(rawQuery);
      RootNameFacts(rawQuery);
      if HasSuffix(name, ".md") then name else name + ".md"
    else "index.md"
  }

  lemma RootNameFacts(rawQuery: string)
    ensures var name := "index-" + Sanitize(rawQuery);
      && NoInvalidChars(name) && NoInvalidChars(name + ".md")
      && HasSuffix(name + ".md", ".md")
      && name != "index.md" && name + ".md" != "index.md"
      && (HasSuffix(name, ".md") <==> HasSuffix(Sanitize(rawQuery), ".md"))
      && ('.' !in rawQuery ==> !HasSuffix(name, ".md"))
  {
    var stem := Sanitize(rawQuery);
    var name := "index-" + stem;
    IndexPrefixClean();
    NoInvalidCharsAppend("index-", stem);
    NoInvalidCharsAppend(name, ".md");
    RootNameNoMd(rawQuery);
    IndexMdSuffix(stem);
    assert name[5] == '-' && (name + ".md")[5] == '-';
    assert (name + ".md")[|name|..] == ".md";
  }

  /** The other branch: the path without its edge slashes, '/' turned into
      '-', the query appended after a '-', then sanitized and given ".md". */
  function PathFilename(path: string, rawQuery: string): (r: string)
    ensures HasSuffix(r, ".md")
    ensures NoInvalidChars(r)
  {
    WithMdExtension(Sanitize(FlatPathQuery(path, rawQuery)))
  }

  /** The branches of GenerateFilename after a successful parse. */
  function FilenameForUrl(u: Url): (r: string)
    ensures HasSuffix(r, ".md")
    ensures NoInvalidChars(r)
    ensures (u.path == "" || u.path == "/") && u.rawQuery == "" ==> r == "index.md"
  {
    if u.path == "" || u.path == "/" then RootFilename(u.rawQuery)
    else PathFilename(u.path, u.rawQuery)
  }

  /** GenerateFilename: an unparsable URL gives "index.md"; every result
      ends in ".md" and holds no path separator or other invalid character. */
  function GenerateFilename(lib: UrlLib, pageUrl: string): (r: string)
    ensures lib.parse(pageUrl).None? ==> r == "index.md"
    ensures HasSuffix(r, ".md")
    ensures NoInvalidChars(r)
  {
    match lib.parse(pageUrl)
    case None => "index.md"
    case Some(u) => FilenameForUrl(u)
  }

  // ---------------------------------------------------------------------
  // Lemmas

  lemma IndexPrefixClean()
    ensures NoInvalidChars("index-") && NoInvalidChars(".md")
  {
  }

  lemma PageIsClean()
    ensures IsCleanName("page") && NonDash("page") == "page"
  {
  }

  lemma NonDashHead(s: string)
    requires |s| > 0 && s[0] != '-'
    ensures NonDash(s) != ""
  {
    assert NonDash(s) == [s[0]] + NonDash(s[1..]);
  }

  lemma NoInvalidCharsAppend(a: string, b: string)
    ensures NoInvalidChars(a + b) <==> NoInvalidChars(a) && NoInvalidChars(b)
  {
    if NoInvalidChars(a) && NoInvalidChars(b) {
      forall i | 0 <= i < |a + b|
        ensures !IsInvalidChar((a + b)[i])
      {
        if i >= |a| {
          assert (a + b)[i] == b[i - |a|];
        }
      }
    }
    if NoInvalidChars(a + b) {
      forall i | 0 <= i < |a|
        ensures !IsInvalidChar(a[i])
      {
        assert (a + b)[i] == a[i];
      }
      forall i | 0 <= i < |b|
        ensures !IsInvalidChar(b[i])
      {
        assert (a + b)[|a| + i] == b[i];
      }
    }
  }

  lemma {:induction false} NonDashAppend(a: string, b: string)
    ensures NonDash(a + b) == NonDash(a) + NonDash(b)
  {
    if |a| == 0 {
      assert a + b == b;
    } else {
      assert (a + b)[1..] == a[1..] + b;
      NonDashAppend(a[1..], b);
    }
  }

  lemma {:induction false} KeptIsNonDashOfReplaced(s: string)
    ensures NonDash(ReplaceInvalid(s)) == Kept(s)
    ensures NoInvalidChars(ReplaceInvalid(s))
  {
    if |s| > 0 {
      KeptIsNonDashOfReplaced(s[1..]);
      assert ReplaceInvalid(s)[1..] == ReplaceInvalid(s[1..]);
    }
  }

  lemma {:induction false} KeptAppend(a: string, b: string)
    ensures Kept(a + b) == Kept(a) + Kept(b)
  {
    if |a| == 0 {
      assert a + b == b;
    } else {
      assert (a + b)[1..] == a[1..] + b;
      KeptAppend(a[1..], b);
    }
  }

  lemma {:induction false} ReplaceInvalidFixed(s: string)
    requires NoInvalidChars(s)
    ensures ReplaceInvalid(s) == s
  {
  }

  lemma {:induction false} CollapseDashesFixed(s: string)
    requires NoDoubleDash(s)
    ensures CollapseDashes(s) == s
  {
    if |s| > 0 {
      assert forall i: nat :: i + 1 < |s| - 1 ==> (DashPairAt(s[1..], i) <==> DashPairAt(s, i + 1));
      CollapseDashesFixed(s[1..]);
      if |s| >= 2 {
        assert !DashPairAt(s, 0);
      }
      assert s == [s[0]] + s[1..];
    }
  }

  /** sanitizeFilename leaves a string alone exactly when it is already a
      clean name, such as "hello-world". */
  lemma SanitizeFixedIff(s: string)
    ensures Sanitize(s) == s <==> IsCleanName(s)
  {
    if IsCleanName(s) {
      ReplaceInvalidFixed(s);
      CollapseDashesFixed(s);
    }
  }

  /** sanitizeFilename is idempotent. */
  lemma SanitizeIdempotent(s: string)
    ensures Sanitize(Sanitize(s)) == Sanitize(s)
  {
    SanitizeFixedIff(Sanitize(s));
  }

  /** Every character of a path without '.' that sanitizeFilename keeps ends
      up in the file name in order: for a non-root path with no '.' in it or
      its query, the name is "page.md" when nothing is kept, and otherwise a
      clean stem plus ".md"; the stem is the words of the path followed by
      the words of the query, joined with '-', so its non-dash characters
      are exactly the kept characters of both. */
  lemma FilenameKeepsPathText(u: Url)
    requires u.path != "" && u.path != "/"
    requires '.' !in u.path && '.' !in u.rawQuery
    ensures Kept(u.path + u.rawQuery) == "" ==> FilenameForUrl(u) == "page.md"
    ensures Kept(u.path + u.rawQuery) != "" ==> exists stem ::
      FilenameForUrl(u) == stem + ".md" && IsCleanName(stem)
      && stem == Join(Words(u.path) + Words(u.rawQuery), '-')
      && NonDash(stem) == Kept(u.path + u.rawQuery)
  {
    var withQuery := FlatPathQuery(u.path, u.rawQuery);
    assert FilenameForUrl(u) == WithMdExtension(Sanitize(withQuery));
    FlatPathQueryKept(u.path, u.rawQuery);
    if Kept(withQuery) == "" {
      PageFile(withQuery);
    } else {
      StemFile(u.path, u.rawQuery);
    }
  }

  lemma PageFile(s: string)
    requires Kept(s) == ""
    ensures WithMdExtension(Sanitize(s)) == "page.md"
  {
    var page := Sanitize(s);
    assert page == "page";
    PageMd(page);
  }

  lemma PageMd(page: string)
    requires page == "page"
    ensures WithMdExtension(page) == "page.md"
  {
    assert '.' !in page && '/' !in page;
    NoDotNoMd(page);
  }

  lemma StemFile(path: string, rawQuery: string)
    requires '.' !in path && '.' !in rawQuery
    requires Kept(FlatPathQuery(path, rawQuery)) != ""
    ensures var stem := Sanitize(FlatPathQuery(path, rawQuery));
      && WithMdExtension(stem) == stem + ".md"
      && stem == Join(Words(path) + Words(rawQuery), '-')
  {
    var withQuery := FlatPathQuery(path, rawQuery);
    WordsOfFlatPathQuery(path, rawQuery);
    SanitizeIsJoinOfWords(withQuery);
    FlatPathQueryNoDot(path, rawQuery);
    var stem := Sanitize(withQuery);
    KeptNoDot(withQuery);
    NonDashNoDot(stem);
    NoDotMd(stem);
  }

  lemma NoDotMd(stem: string)
    requires '.' !in stem && IsCleanName(stem)
    ensures WithMdExtension(stem) == stem + ".md"
  {
    assert |stem| >= 3 ==> stem[|stem| - 3..][0] == stem[|stem| - 3];
    assert forall i :: 0 <= i < |stem| ==> stem[i] != '/';
  }

  /** The string PathFilename sanitizes. */
  function FlatPathQuery(path: string, rawQuery: string): string {
    var trimmed := TrimSuffix(TrimPrefix(path, "/"), "/");
    var flat := ReplaceChar(trimmed, '/', '-');
    if rawQuery != "" then flat + "-" + rawQuery else flat
  }

  lemma FlatPathQueryKept(path: string, rawQuery: string)
    ensures Kept(FlatPathQuery(path, rawQuery)) == Kept(path + rawQuery)
  {
    var trimmed := TrimSuffix(TrimPrefix(path, "/"), "/");
    var flat := ReplaceChar(trimmed, '/', '-');
    KeptOfTrimmedPath(path);
    KeptOfReplaceSlash(trimmed);
    assert Kept(flat) == Kept(path);
    KeptAppend(path, rawQuery);
    if rawQuery != "" {
      KeptDashSep(flat, rawQuery);
    }
  }

  lemma KeptDashSep(a: string, b: string)
    ensures Kept(a + "-" + b) == Kept(a) + Kept(b)
  {
    var dash := "-";
    KeptOfDash(dash);
    KeptAppend(a, dash);
    KeptAppend(a + dash, b);
  }

  lemma KeptOfDash(dash: string)
    requires dash == "-"
    ensures Kept(dash) == ""
  {
    assert dash[1..] == "";
  }

  lemma FlatPathQueryNoDot(path: string, rawQuery: string)
    requires '.' !in path && '.' !in rawQuery
    ensures '.' !in FlatPathQuery(path, rawQuery)
  {
    var left := TrimPrefix(path, "/");
    assert '.' !in left by {
      if HasPrefix(path, "/") {
        assert forall i :: 0 <= i < |left| ==> left[i] == path[i + 1];
      }
    }
    var trimmed := TrimSuffix(left, "/");
    assert '.' !in trimmed by {
      if HasSuffix(left, "/") {
        assert forall i :: 0 <= i < |trimmed| ==> trimmed[i] == left[i];
      }
    }
  }

  /** Sanitizing text without '.' gives a name without '.'. */
  lemma SanitizeNoDot(s: string)
    requires '.' !in s
    ensures '.' !in Sanitize(s)
  {
    var r := Sanitize(s);
    KeptNoDot(s);
    if Kept(s) == "" {
      assert r == "page";
    } else {
      NonDashNoDot(r);
    }
  }

  lemma RootNameNoMd(rawQuery: string)
    ensures '.' !in rawQuery ==> !HasSuffix("index-" + Sanitize(rawQuery), ".md")
  {
    if '.' !in rawQuery {
      var stem := Sanitize(rawQuery);
      SanitizeNoDot(rawQuery);
      var prefix := "index-";
      assert '.' !in prefix;
      NoDotConcat(prefix, stem);
      NoDotNoMd(prefix + stem);
    }
  }

  lemma NoDotConcat(a: string, b: string)
    requires '.' !in a && '.' !in b
    ensures '.' !in a + b
  {
    assert forall i :: 0 <= i < |a + b| ==> (a + b)[i] == if i < |a| then a[i] else b[i - |a|];
  }

  lemma NoDotNoMd(name: string)
    requires '.' !in name
    ensures !HasSuffix(name, ".md")
  {
    assert |name| >= 3 ==> name[|name| - 3..][0] == name[|name| - 3];
  }

  lemma {:induction false} KeptNoDot(s: string)
    requires '.' !in s
    ensures '.' !in Kept(s)
  {
    if |s| > 0 {
      KeptNoDot(s[1..]);
    }
  }

  lemma {:induction false} NonDashNoDot(s: string)
    requires '.' !in NonDash(s)
    ensures '.' !in s
  {
    if |s| > 0 {
      NonDashNoDot(s[1..]);
    }
  }

  lemma KeptOfTrimmedPath(path: string)
    ensures Kept(TrimSuffix(TrimPrefix(path, "/"), "/")) == Kept(path)
  {
    var a := TrimPrefix(path, "/");
    if HasPrefix(path, "/") {
      KeptAppend("/", a);
    }
    var b := TrimSuffix(a, "/");
    if HasSuffix(a, "/") {
      KeptAppend(b, "/");
    }
  }

  lemma {:induction false} KeptOfReplaceSlash(s: string)
    ensures Kept(ReplaceChar(s, '/', '-')) == Kept(s)
  {
    if |s| > 0 {
      KeptOfReplaceSlash(s[1..]);
      assert ReplaceChar(s, '/', '-')[1..] == ReplaceChar(s[1..], '/', '-');
    }
  }

  /** The map from URLs to file names is not injective: for path segments
      `a` and `b`, the nested path `/a/b`, the joined path `/a-b` and the
      path `/a` with query `b` all give the same file. */
  lemma FilenamesCollide(u: Url, a: string, b: string)
    requires a != "" && b != "" && '/' !in a && '/' !in b
    ensures FilenameForUrl(u.(path := "/" + a + "/" + b, rawQuery := ""))
         == FilenameForUrl(u.(path := "/" + a + "-" + b, rawQuery := ""))
    ensures FilenameForUrl(u.(path := "/" + a + "-" + b, rawQuery := ""))
         == FilenameForUrl(u.(path := "/" + a, rawQuery := b))
  {
    var nested := u.(path := "/" + a + "/" + b, rawQuery := "");
    var joined := u.(path := "/" + a + "-" + b, rawQuery := "");
    var queried := u.(path := "/" + a, rawQuery := b);
    FilenameOfPath(nested);
    FilenameOfPath(joined);
    FilenameOfPath(queried);
    FlatNested(a, b);
    FlatJoined(a, b);
    FlatWithQuery(a, b);
  }

  lemma FilenameOfPath(u: Url)
    requires |u.path| > 1
    ensures FilenameForUrl(u) == WithMdExtension(Sanitize(FlatPathQuery(u.path, u.rawQuery)))
  {
  }

  lemma FlatNested(a: string, b: string)
    requires b != "" && '/' !in a && '/' !in b
    ensures FlatPathQuery("/" + a + "/" + b, "") == a + "-" + b
  {
    var inner := a + "/" + b;
    assert "/" + a + "/" + b == "/" + inner;
    assert TrimPrefix("/" + inner, "/") == inner;
    NoTrailingSlash(a + "/", b);
    ReplaceSlashes(a, b);
  }

  lemma NoTrailingSlash(a: string, b: string)
    requires b != "" && '/' !in b
    ensures TrimSuffix(a + b, "/") == a + b
  {
    assert (a + b)[|a + b| - 1] == b[|b| - 1];
  }

  lemma ReplaceSlashes(a: string, b: string)
    requires '/' !in a && '/' !in b
    ensures ReplaceChar(a + "/" + b, '/', '-') == a + "-" + b
  {
    var r := ReplaceChar(a + "/" + b, '/', '-');
    assert forall i :: 0 <= i < |r| ==> r[i] == (a + "-" + b)[i];
  }

  lemma FlatJoined(a: string, b: string)
    requires b != "" && '/' !in a && '/' !in b
    ensures FlatPathQuery("/" + a + "-" + b, "") == a + "-" + b
  {
    var inner := a + "-" + b;
    assert "/" + a + "-" + b == "/" + inner;
    assert TrimPrefix("/" + inner, "/") == inner;
    NoTrailingSlash(a + "-", b);
    ReplaceNoSlash(inner);
  }

  lemma FlatWithQuery(a: string, b: string)
    requires a != "" && b != "" && '/' !in a
    ensures FlatPathQuery("/" + a, b) == a + "-" + b
  {
    assert TrimPrefix("/" + a, "/") == a;
    NoTrailingSlash("", a);
    assert "" + a == a;
    ReplaceNoSlash(a);
  }

  lemma ReplaceNoSlash(s: string)
    requires '/' !in s
    ensures ReplaceChar(s, '/', '-') == s
  {
    var r := ReplaceChar(s, '/', '-');
    assert forall i :: 0 <= i < |r| ==> r[i] == s[i];
  }

  /** "index-" never supplies part of a ".md" suffix. */
  lemma IndexMdSuffix(stem: string)
    ensures HasSuffix("index-" + stem, ".md") <==> HasSuffix(stem, ".md")
  {
    var name := "index-" + stem;
    if |stem| >= 3 {
      assert name[|name| - 3..] == stem[|stem| - 3..];
    } else if |name| >= 3 {
      assert name[|name| - 3] == "index-"[|stem| + 3];
    }
  }

  // ---------------------------------------------------------------------
  // sanitizeFilename joins the words of its input with '-'

  /** Two strings with separators in the same places and the same
      characters elsewhere have the same words. */
  predicate SameShape(s: string, t: string) {
    |s| == |t|
    && forall i :: 0 <= i < |s| ==>
      (IsSeparator(s[i]) <==> IsSeparator(t[i])) && (!IsSeparator(s[i]) ==> s[i] == t[i])
  }

  lemma {:induction false} WordsSameShape(s: string, t: string)
    requires SameShape(s, t)
    ensures Words(s) == Words(t)
  {
    if |s| > 0 {
      assert SameShape(s[1..], t[1..]) by {
        forall i | 0 <= i < |s| - 1
          ensures (IsSeparator(s[1..][i]) <==> IsSeparator(t[1..][i]))
            && (!IsSeparator(s[1..][i]) ==> s[1..][i] == t[1..][i])
        {
          assert s[1..][i] == s[i + 1] && t[1..][i] == t[i + 1];
        }
      }
      WordsSameShape(s[1..], t[1..]);
      if |s| > 1 {
        assert IsSeparator(s[1]) <==> IsSeparator(t[1]);
      }
    }
  }

  lemma WordsOfReplaceInvalid(s: string)
    ensures Words(ReplaceInvalid(s)) == Words(s)
  {
    WordsSameShape(ReplaceInvalid(s), s);
  }

  /** Unfolding Words once at a character in front of `t`. */
  lemma WordsCons(c: char, t: string)
    ensures Words([c] + t) ==
      if IsSeparator(c) then Words(t)
      else if |t| > 0 && !IsSeparator(t[0]) then [[c] + Words(t)[0]] + Words(t)[1..]
      else [[c]] + Words(t)
  {
    assert ([c] + t)[1..] == t;
  }

  lemma {:induction false} WordsOfCollapseDashes(s: string)
    ensures Words(CollapseDashes(s)) == Words(s)
  {
    if |s| > 0 {
      WordsOfCollapseDashes(s[1..]);
      WordsCons(s[0], s[1..]);
      assert s == [s[0]] + s[1..];
      if !(|s| >= 2 && s[0] == '-' && s[1] == '-') {
        var rest := CollapseDashes(s[1..]);
        assert CollapseDashes(s) == [s[0]] + rest;
        WordsCons(s[0], rest);
      }
    }
  }

  lemma {:induction false} WordsOfTrimLeftDash(s: string)
    ensures Words(TrimLeftDash(s)) == Words(s)
  {
    if |s| > 0 && s[0] == '-' {
      WordsOfTrimLeftDash(s[1..]);
    }
  }

  /** A separator splits the words of a string in two. */
  lemma {:induction false} WordsSplitAtSeparator(a: string, c: char, b: string)
    requires IsSeparator(c)
    ensures Words(a + [c] + b) == Words(a) + Words(b)
  {
    if |a| == 0 {
      assert a + [c] + b == [c] + b;
      WordsCons(c, b);
    } else {
      var tail := a[1..] + [c] + b;
      WordsSplitAtSeparator(a[1..], c, b);
      if |a| > 1 {
        assert tail[0] == a[1];
      }
      WordsConsShift(a[0], tail, a[1..], Words(b));
      assert a + [c] + b == [a[0]] + tail;
      assert a == [a[0]] + a[1..];
    }
  }

  /** Putting the same character in front of two strings whose words differ
      by a common tail, and which both start a word or both do not. */
  lemma WordsConsShift(h: char, t1: string, t2: string, vs: seq<string>)
    requires Words(t1) == Words(t2) + vs
    requires (|t1| > 0 && !IsSeparator(t1[0])) <==> (|t2| > 0 && !IsSeparator(t2[0]))
    ensures Words([h] + t1) == Words([h] + t2) + vs
  {
    if IsSeparator(h) {
      WordsConsSeparator(h, t1);
      WordsConsSeparator(h, t2);
    } else if |t2| > 0 && !IsSeparator(t2[0]) {
      ShiftJoined(h, t1, t2, vs);
    } else {
      ShiftStarted(h, t1, t2, vs);
    }
  }

  lemma ShiftJoined(h: char, t1: string, t2: string, vs: seq<string>)
    requires Words(t1) == Words(t2) + vs
    requires !IsSeparator(h) && |t1| > 0 && !IsSeparator(t1[0]) && |t2| > 0 && !IsSeparator(t2[0])
    ensures Words([h] + t1) == Words([h] + t2) + vs
  {
    WordsConsJoins(h, t1);
    WordsConsJoins(h, t2);
    ExtendFirstWord(h, Words(t2), vs);
  }

  lemma ShiftStarted(h: char, t1: string, t2: string, vs: seq<string>)
    requires Words(t1) == Words(t2) + vs
    requires !IsSeparator(h) && !(|t1| > 0 && !IsSeparator(t1[0])) && !(|t2| > 0 && !IsSeparator(t2[0]))
    ensures Words([h] + t1) == Words([h] + t2) + vs
  {
    WordsConsStarts(h, t1);
    WordsConsStarts(h, t2);
    ConcatAssoc([[h]], Words(t2), vs);
  }

  lemma ConcatAssoc<T>(a: seq<T>, b: seq<T>, c: seq<T>)
    ensures a + (b + c) == (a + b) + c
  {
  }

  lemma WordsConsSeparator(h: char, t: string)
    requires IsSeparator(h)
    ensures Words([h] + t) == Words(t)
  {
    assert ([h] + t)[1..] == t;
  }

  lemma WordsConsJoins(h: char, t: string)
    requires !IsSeparator(h) && |t| > 0 && !IsSeparator(t[0])
    ensures |Words(t)| > 0 && Words([h] + t) == [[h] + Words(t)[0]] + Words(t)[1..]
  {
    assert ([h] + t)[1..] == t;
  }

  lemma WordsConsStarts(h: char, t: string)
    requires !IsSeparator(h) && !(|t| > 0 && !IsSeparator(t[0]))
    ensures Words([h] + t) == [[h]] + Words(t)
  {
    assert ([h] + t)[1..] == t;
  }

  lemma ExtendFirstWord(c: char, ws: seq<string>, vs: seq<string>)
    requires |ws| > 0
    ensures [[c] + (ws + vs)[0]] + (ws + vs)[1..] == ([[c] + ws[0]] + ws[1..]) + vs
  {
    assert (ws + vs)[1..] == ws[1..] + vs;
  }

  lemma WordsDropLastSeparator(a: string, c: char)
    requires IsSeparator(c)
    ensures Words(a + [c]) == Words(a)
  {
    WordsSplitAtSeparator(a, c, "");
    assert a + [c] + "" == a + [c];
  }

  lemma {:induction false} WordsOfTrimRightDash(s: string)
    ensures Words(TrimRightDash(s)) == Words(s)
  {
    if |s| > 0 && s[|s| - 1] == '-' {
      var init := s[..|s| - 1];
      assert s == init + ['-'];
      WordsOfTrimRightDash(init);
      WordsDropLastSeparator(init, '-');
    }
  }

  lemma JoinConsHead(c: char, w: string, ws: seq<string>)
    ensures Join([[c] + w] + ws, '-') == [c] + Join([w] + ws, '-')
  {
    var xs := [[c] + w] + ws;
    var ys := [w] + ws;
    assert xs[1..] == ws && ys[1..] == ws;
  }

  /** A clean name is the '-'-join of its own words. */
  lemma {:induction false} CleanNameIsJoinOfWords(y: string)
    requires IsCleanName(y)
    ensures Words(y) != [] && Join(Words(y), '-') == y
    decreases |y|
  {
    var c := y[0];
    var t := y[1..];
    assert y == [c] + t;
    if |t| == 0 {
      WordsConsStarts(c, t);
    } else if !IsSeparator(t[0]) {
      CleanTail(y);
      CleanNameIsJoinOfWords(t);
      WordsConsJoins(c, t);
      var ws := Words(t);
      assert ws == [ws[0]] + ws[1..];
      JoinConsHead(c, ws[0], ws[1..]);
    } else {
      var u := y[2..];
      CleanAfterDash(y);
      assert t == [t[0]] + u;
      WordsConsStarts(c, t);
      WordsConsSeparator(t[0], u);
      CleanNameIsJoinOfWords(u);
      var ws := Words(u);
      assert ([[c]] + ws)[1..] == ws;
    }
  }

  lemma CleanTail(y: string)
    requires IsCleanName(y) && |y| > 1 && y[1] != '-'
    ensures IsCleanName(y[1..])
  {
    var t := y[1..];
    assert t[|t| - 1] == y[|y| - 1];
    assert forall i :: 0 <= i < |t| ==> t[i] == y[i + 1];
    assert forall i: nat :: i + 1 < |t| ==> (DashPairAt(t, i) <==> DashPairAt(y, i + 1));
  }

  /** In a clean name, a '-' in second place is followed by another clean
      name. */
  lemma CleanAfterDash(y: string)
    requires IsCleanName(y) && |y| > 1 && IsSeparator(y[1])
    ensures y[1] == '-' && |y| > 2 && IsCleanName(y[2..])
  {
    var u := y[2..];
    assert !IsInvalidChar(y[1]);
    assert |u| > 0;
    assert !DashPairAt(y, 1);
    assert u[0] == y[2];
    assert u[|u| - 1] == y[|y| - 1];
    assert forall i :: 0 <= i < |u| ==> u[i] == y[i + 2];
    assert forall i: nat :: i + 1 < |u| ==> (DashPairAt(u, i) <==> DashPairAt(y, i + 2));
  }

  /** A string has no words exactly when sanitizeFilename keeps nothing of
      it. */
  lemma {:induction false} WordsEmptyIff(s: string)
    ensures Words(s) == [] <==> Kept(s) == ""
  {
    if |s| > 0 {
      WordsEmptyIff(s[1..]);
    }
  }

  /** sanitizeFilename joins the words of its input with single dashes, and
      falls back to "page" when there are none. */
  lemma SanitizeIsJoinOfWords(s: string)
    ensures Kept(s) == "" ==> Sanitize(s) == "page"
    ensures Kept(s) != "" ==> Sanitize(s) == Join(Words(s), '-')
  {
    var replaced := ReplaceInvalid(s);
    var collapsed := CollapseDashes(replaced);
    var left := TrimLeftDash(collapsed);
    var trimmed := TrimRightDash(left);
    WordsOfReplaceInvalid(s);
    WordsOfCollapseDashes(replaced);
    WordsOfTrimLeftDash(collapsed);
    WordsOfTrimRightDash(left);
    WordsEmptyIff(s);
    KeptIsNonDashOfReplaced(s);
    assert Words(trimmed) == Words(s);
    if trimmed != "" {
      assert Sanitize(s) == trimmed;
      CleanNameIsJoinOfWords(trimmed);
    }
  }

  /** Flattening a path keeps its words, and the query's words follow. */
  lemma WordsOfFlatPathQuery(path: string, rawQuery: string)
    ensures Words(FlatPathQuery(path, rawQuery)) == Words(path) + Words(rawQuery)
  {
    var trimmed := TrimSuffix(TrimPrefix(path, "/"), "/");
    var flat := ReplaceChar(trimmed, '/', '-');
    WordsOfTrimmedPath(path);
    WordsSameShape(flat, trimmed);
    WordsAfterDash(flat, rawQuery);
  }

  lemma WordsOfTrimmedPath(path: string)
    ensures Words(TrimSuffix(TrimPrefix(path, "/"), "/")) == Words(path)
  {
    var left := TrimPrefix(path, "/");
    if HasPrefix(path, "/") {
      assert path == "" + ['/'] + left;
      WordsSplitAtSeparator("", '/', left);
    }
    var trimmed := TrimSuffix(left, "/");
    if HasSuffix(left, "/") {
      assert left == trimmed + ['/'];
      WordsDropLastSeparator(trimmed, '/');
    }
  }

  lemma WordsAfterDash(flat: string, rawQuery: string)
    ensures Words(if rawQuery != "" then flat + "-" + rawQuery else flat) == Words(flat) + Words(rawQuery)
  {
    if rawQuery != "" {
      assert flat + "-" + rawQuery == flat + ['-'] + rawQuery;
      WordsSplitAtSeparator(flat, '-', rawQuery);
    } else {
      assert Words(rawQuery) == [];
    }
  }
}

=== FILE: lexorder.dfy ===
/** The order Go's `sort.Strings` puts strings in: lexicographic by code
    point, a proper prefix first. On UTF-8 this coincides with Go's byte-wise
    comparison. */
module LexOrder {

  predicate LexLe(a: string, b: string)
    decreases |a|
  {
    if |a| == 0 then true
    else if |b| == 0 then false
    else if a[0] != b[0] then a[0] < b[0]
    else LexLe(a[1..], b[1..])
  }

  lemma {:induction false} LexLeReflexive(a: string)
    ensures LexLe(a, a)
  {
    if |a| > 0 {
      LexLeReflexive(a[1..]);
    }
  }

  lemma {:induction false} LexLeTotal(a: string, b: string)
    ensures LexLe(a, b) || LexLe(b, a)
  {
    if |a| > 0 && |b| > 0 && a[0] == b[0] {
      LexLeTotal(a[1..], b[1..]);
    }
  }

  lemma {:induction false} LexLeAntisymmetric(a: string, b: string)
    requires LexLe(a, b) && LexLe(b, a)
    ensures a == b
  {
    if |a| > 0 && |b| > 0 {
      LexLeAntisymmetric(a[1..], b[1..]);
      assert a == [a[0]] + a[1..];
      assert b == [b[0]] + b[1..];
    }
  }

  lemma {:induction false} LexLeTransitive(a: string, b: string, c: string)
    requires LexLe(a, b) && LexLe(b, c)
    ensures LexLe(a, c)
  {
    if |a| > 0 && |b| > 0 && |c| > 0 && a[0] == b[0] && b[0] == c[0] {
      LexLeTransitive(a[1..], b[1..], c[1..]);
    }
  }
}

=== FILE: linkpolicy.dfy ===
/** Which discovered hrefs the crawler hands to the collector
    (src/crawler/crawler.go): the protocol skip list, the e-mail and phone
    heuristics, and the exclusion-prefix test. */
module LinkPolicy {
  import opened Wrappers
  import opened Strs
  import opened Urls

  // ---------------------------------------------------------------------
  // Contact-link heuristics

  /** looksLikeEmail: splitting on '@' gives exactly two parts, both
      non-empty, and the second holds a '.'. */
  predicate LooksLikeEmail(s: string) {
    '@' in s
    && var parts := Split(s, '@');
    |parts| == 2 && |parts[0]| > 0 && |parts[1]| > 0 && '.' in parts[1]
  }

  predicate IsDigit(c: char) {
    '0' <= c <= '9'
  }

  /** The strings.Map call in looksLikePhone: every non-digit dropped. */
  function DigitsOf(s: string): (r: string)
    ensures forall i :: 0 <= i < |r| ==> IsDigit(r[i])
    ensures |r| <= |s|
  {
    if |s| == 0 then ""
    else (if IsDigit(s[0]) then [s[0]] else "") + DigitsOf(s[1..])
  }

  /** strings.ContainsAny(s, "+()-") */
  predicate HasPhoneChar(s: string) {
    '+' in s || '(' in s || ')' in s || '-' in s
  }

  /** looksLikePhone */
  predicate LooksLikePhone(s: string) {
    var digitCount := |DigitsOf(s)|;
    7 <= digitCount <= 15 && HasPhoneChar(s)
  }

  /** Number of ASCII digits in `s`. */
  function DigitCount(s: string): nat {
    if |s| == 0 then 0 else (if IsDigit(s[0]) then 1 else 0) + DigitCount(s[1..])
  }

  // ---------------------------------------------------------------------
  // The href filter of the `a[href]` handler

  /** Prefixes whose hrefs are never followed: in-page anchors and
      non-document schemes. */
  const NonDocumentPrefixes: seq<string> :=
    ["#", "javascript:", "mailto:", "tel:", "sms:", "fax:", "data:", "file:"]

  datatype HrefClass = SkipNonDocument | SkipContact | Follow

  /** The two early returns of the `a[href]` handler, in the order the
      handler tests them. */
  function ClassifyHref(href: string): (r: HrefClass)
    ensures r == SkipNonDocument <==> exists p | p in NonDocumentPrefixes :: HasPrefix(href, p)
    ensures r == SkipContact <==>
      (forall p | p in NonDocumentPrefixes :: !HasPrefix(href, p))
      && (LooksLikeEmail(href) || LooksLikePhone(href))
    ensures r == Follow <==>
      (forall p | p in NonDocumentPrefixes :: !HasPrefix(href, p))
      && !LooksLikeEmail(href) && !LooksLikePhone(href)
  {
    if HasPrefix(href, "#")
      || HasPrefix(href, "javascript:")
      || HasPrefix(href, "mailto:")
      || HasPrefix(href, "tel:")
      || HasPrefix(href, "sms:")
      || HasPrefix(href, "fax:")
      || HasPrefix(href, "data:")
      || HasPrefix(href, "file:")
    then SkipNonDocument
    else if LooksLikeEmail(href) || LooksLikePhone(href) then SkipContact
    else Follow
  }

  // ---------------------------------------------------------------------
  // Exclusion prefixes

  /** The loop of isExcludedPath over the configured prefixes. */
  function AnyPrefixMatches(prefixes: seq<string>, fullPath: string, rawUrl: string): (r: bool)
    ensures r <==> exists p | p in prefixes :: HasPrefix(fullPath, p) || HasPrefix(rawUrl, p)
  {
    if |prefixes| == 0 then false
    else if HasPrefix(fullPath, prefixes[0]) || HasPrefix(rawUrl, prefixes[0]) then true
    else AnyPrefixMatches(prefixes[1..], fullPath, rawUrl)
  }

  /** isExcludedPath: no prefixes or an unparsable URL exclude nothing;
      otherwise some prefix must start `scheme://host/path` or the raw URL. */
  function IsExcludedPath(lib: UrlLib, excluded: seq<string>, rawUrl: string): (r: bool)
    ensures r <==>
      |excluded| > 0 && lib.parse(rawUrl).Some?
      && exists p | p in excluded ::
           HasPrefix(SchemeHostPath(lib.parse(rawUrl).value), p) || HasPrefix(rawUrl, p)
  {
    if |excluded| == 0 then false
    else
      match lib.parse(rawUrl)
      case None => false
      case Some(u) => AnyPrefixMatches(excluded, SchemeHostPath(u), rawUrl)
  }

  // ---------------------------------------------------------------------
  // Lemmas

  /** With `local` the text before the first '@', looksLikeEmail holds
      exactly when there is no second '@', both sides are non-empty and the
      domain side holds a '.'. Every string containing '@' has this form. */
  lemma LooksLikeEmailIff(local: string, domain: string)
    requires '@' !in local
    ensures LooksLikeEmail(local + "@" + domain) <==>
      local != "" && domain != "" && '@' !in domain && '.' in domain
  {
    SplitFirst(local, domain, '@');
    assert Split(local + "@" + domain, '@') == [local] + Split(domain, '@');
    assert '@' in local + "@" + domain by {
      assert (local + "@" + domain)[|local|] == '@';
    }
    if '@' !in domain {
      SplitNoSep(domain, '@');
    }
  }

  lemma {:induction false} DigitsOfAppend(a: string, b: string)
    ensures DigitsOf(a + b) == DigitsOf(a) + DigitsOf(b)
  {
    if |a| == 0 {
      assert a + b == b;
    } else {
      assert (a + b)[1..] == a[1..] + b;
      DigitsOfAppend(a[1..], b);
    }
  }

  lemma {:induction false} DigitsOfCountsDigits(s: string)
    ensures |DigitsOf(s)| == DigitCount(s)
  {
    if |s| > 0 {
      DigitsOfCountsDigits(s[1..]);
    }
  }

  /** looksLikePhone holds exactly when `s` has between 7 and 15 ASCII digits
      and at least one of '+', '(', ')', '-'. */
  lemma LooksLikePhoneIff(s: string)
    ensures LooksLikePhone(s) <==>
      7 <= DigitCount(s) <= 15 && exists i | 0 <= i < |s| :: s[i] in "+()-"
  {
    DigitsOfCountsDigits(s);
    if HasPhoneChar(s) {
      var i :| 0 <= i < |s| && s[i] in "+()-";
    }
  }

  /** Characters that are neither digits nor phone punctuation (spaces,
      letters, dots) have no influence on looksLikePhone. */
  lemma PhoneIgnoresOtherChars(a: string, c: char, b: string)
    requires !IsDigit(c) && c !in "+()-"
    ensures LooksLikePhone(a + [c] + b) == LooksLikePhone(a + b)
  {
    DigitsOfAppend(a + [c], b);
    DigitsOfAppend(a, [c]);
    DigitsOfAppend(a, b);
    assert DigitsOf([c]) == "";
    MembershipWithout(a, c, b, '+');
    MembershipWithout(a, c, b, '(');
    MembershipWithout(a, c, b, ')');
    MembershipWithout(a, c, b, '-');
  }

  /** Removing one occurrence of `c` changes no other character's presence. */
  lemma MembershipWithout(a: string, c: char, b: string, x: char)
    requires x != c
    ensures x in a + [c] + b <==> x in a + b
  {
    assert multiset(a + [c] + b) == multiset(a + b) + multiset{c};
    assert x in a + [c] + b <==> x in multiset(a + [c] + b);
    assert x in a + b <==> x in multiset(a + b);
  }

  /** Adding exclusion prefixes never makes an excluded URL eligible. */
  lemma ExclusionMonotone(lib: UrlLib, excluded: seq<string>, more: seq<string>, rawUrl: string)
    requires forall p | p in excluded :: p in more
    ensures IsExcludedPath(lib, excluded, rawUrl) ==> IsExcludedPath(lib, more, rawUrl)
  {
    if IsExcludedPath(lib, excluded, rawUrl) {
      var p :| p in excluded
        && (HasPrefix(SchemeHostPath(lib.parse(rawUrl).value), p) || HasPrefix(rawUrl, p));
      assert p in more;
    }
  }

  /** The order and repetition of exclusion prefixes do not matter. */
  lemma ExclusionOrderIrrelevant(lib: UrlLib, a: seq<string>, b: seq<string>, rawUrl: string)
    requires forall p :: p in a <==> p in b
    ensures IsExcludedPath(lib, a, rawUrl) == IsExcludedPath(lib, b, rawUrl)
  {
    ExclusionMonotone(lib, a, b, rawUrl);
    ExclusionMonotone(lib, b, a, rawUrl);
  }
}

=== FILE: localizer.dfy ===
/** ConvertLinksToLocal of src/converter/converter.go: every Markdown link
    `[text](target)` whose target resolves to a crawled page is pointed at
    that page's local file; everything else is left as it was. */
module Localizer {
  import opened Wrappers
  import opened Strs
  import opened Urls

  // ---------------------------------------------------------------------
  // The pattern `\[([^\]]+)\]\(([^)]+)\)`

  /** The first index at or after `from` holding `c`. */
  function IndexOf(s: string, c: char, from: nat): (r: Option<nat>)
    requires from <= |s|
    ensures r.Some? ==> from <= r.value < |s| && s[r.value] == c
    ensures r.Some? ==> forall j :: from <= j < r.value ==> s[j] != c
    ensures r.None? ==> forall j :: from <= j < |s| ==> s[j] != c
    decreases |s| - from
  {
    if from == |s| then None
    else if s[from] == c then Some(from)
    else IndexOf(s, c, from + 1)
  }

  /** The Markdown text of a link. */
  function LinkText(text: string, target: string): string {
    "[" + text + "](" + target + ")"
  }

  /** A match of the pattern: its two groups and its length. */
  datatype Match = Match(text: string, target: string, len: nat)

  /** The groups the pattern's two bracket classes can capture. */
  predicate ValidGroups(text: string, target: string) {
    text != "" && ']' !in text && target != "" && ')' !in target
  }

  /** Whether the pattern matches at the start of `s`. Both classes are
      negated single characters followed by that character, so the greedy
      groups stop at the first ']' and the first ')'. */
  function MatchAt(s: string): (r: Option<Match>)
    ensures r.Some? ==>
      ValidGroups(r.value.text, r.value.target)
      && r.value.len == |LinkText(r.value.text, r.value.target)|
      && HasPrefix(s, LinkText(r.value.text, r.value.target))
  {
    if |s| == 0 || s[0] != '[' then None
    else
      match IndexOf(s, ']', 1)
      case None => None
      case Some(close) =>
        if close == 1 || close + 1 >= |s| || s[close + 1] != '(' then None
        else
          match IndexOf(s, ')', close + 2)
          case None => None
          case Some(end) =>
            if end == close + 2 then None
            else
              var text := s[1..close];
              var target := s[close + 2..end];
              assert ']' !in text;
              assert ')' !in target;
              assert s[..end + 1] == LinkText(text, target);
              Some(Match(text, target, end + 1))
  }

  /** A piece of Markdown: a character outside any link, or one link. */
  datatype Token = Char(c: char) | Link(text: string, target: string)

  function Render(ts: seq<Token>): string {
    if |ts| == 0 then ""
    else
      (match ts[0]
       case Char(c) => [c]
       case Link(text, target) => LinkText(text, target))
      + Render(ts[1..])
  }

  /** The leftmost, non-overlapping matches ReplaceAllStringFunc visits,
      with the text between them as single characters. Splitting into tokens
      loses nothing: rendering them gives the input back. */
  function Tokenize(s: string): (ts: seq<Token>)
    ensures Render(ts) == s
    ensures forall i :: 0 <= i < |ts| && ts[i].Link? ==> ValidGroups(ts[i].text, ts[i].target)
    decreases |s|
  {
    if |s| == 0 then []
    else
      match MatchAt(s)
      case Some(m) =>
        var rest := Tokenize(s[m.len..]);
        RenderLinkCons(s, m.len, m.text, m.target, rest);
        [Link(m.text, m.target)] + rest
      case None =>
        var rest := Tokenize(s[1..]);
        RenderCharCons(s, rest);
        [Char(s[0])] + rest
  }

  /** Whether token `t` is the one the leftmost scan takes at the start of
      `s`: a character where no link matches, or exactly the link that
      matches there. */
  predicate TokenAt(t: Token, s: string) {
    match t
    case Char(_) => MatchAt(s).None?
    case Link(text, target) => MatchAt(s) == Some(Match(text, target, |LinkText(text, target)|))
  }

  /** Every token is the one the scan takes where it starts. */
  predicate Scanned(ts: seq<Token>) {
    forall i :: 0 <= i < |ts| ==> TokenAt(ts[i], Render(ts[i..]))
  }

  // ---------------------------------------------------------------------
  // Rewriting one link

  /** The lookup key without the query: scheme, host and the path without a
      trailing '/'. */
  function CleanKey(u: Url): string {
    u.scheme + "://" + u.host + TrimSuffix(u.path, "/")
  }

  /** The lookup key with the query, tried first. */
  function FullKey(u: Url): (r: string)
    ensures u.rawQuery == "" ==> r == CleanKey(u)
  {
    CleanKey(u) + (if u.rawQuery != "" then "?" + u.rawQuery else "")
  }

  /** The local file, with the link's fragment carried over. */
  function WithFragment(file: string, fragment: string): string {
    if fragment != "" then file + "#" + fragment else file
  }

  /** Targets the function never rewrites. */
  predicate IsSkippedTarget(target: string) {
    HasPrefix(target, "#") || HasPrefix(target, "mailto:") || HasPrefix(target, "javascript:")
  }

  /** The absolute form of a parsed link target. */
  function Absolute(lib: UrlLib, base: Url, link: Url): Url {
    if IsAbs(link) then link else lib.resolve(base, link)
  }

  /** A target that points into the local file set: one of the index's
      files, possibly followed by a fragment. */
  predicate IsLocalTarget(index: map<string, string>, target: string) {
    exists key | key in index :: target == index[key] || HasPrefix(target, index[key] + "#")
  }

  /** The new target of one link, or None when the link is kept. A link is
      rewritten only when its target is not skipped, parses, and its
      absolute form is found in the index under the key with the query or,
      failing that, under the key without it. */
  function LocalTarget(lib: UrlLib, base: Url, index: map<string, string>, target: string): (r: Option<string>)
    ensures IsSkippedTarget(target) || lib.parse(target).None? ==> r.None?
    ensures r.Some? ==> IsLocalTarget(index, r.value)
    ensures !IsSkippedTarget(target) && lib.parse(target).Some? ==>
      var u := Absolute(lib, base, lib.parse(target).value);
      (r.Some? <==> FullKey(u) in index || CleanKey(u) in index)
      && (FullKey(u) in index ==> r == Some(WithFragment(index[FullKey(u)], u.fragment)))
      && (FullKey(u) !in index && CleanKey(u) in index ==> r == Some(WithFragment(index[CleanKey(u)], u.fragment)))
  {
    if IsSkippedTarget(target) then None
    else
      match lib.parse(target)
      case None => None
      case Some(link) =>
        var u := Absolute(lib, base, link);
        if FullKey(u) in index then
          assert HasPrefix(WithFragment(index[FullKey(u)], u.fragment), index[FullKey(u)] + "#") || u.fragment == "";
          Some(WithFragment(index[FullKey(u)], u.fragment))
        else if CleanKey(u) in index then
          assert HasPrefix(WithFragment(index[CleanKey(u)], u.fragment), index[CleanKey(u)] + "#") || u.fragment == "";
          Some(WithFragment(index[CleanKey(u)], u.fragment))
        else None
  }

  function LocalizeToken(lib: UrlLib, base: Url, index: map<string, string>, t: Token): Token {
    match t
    case Char(_) => t
    case Link(text, target) =>
      match LocalTarget(lib, base, index, target)
      case None => t
      case Some(file) => Link(text, file)
  }

  /** The callback applied to every match, in order. */
  function LocalizeTokens(lib: UrlLib, base: Url, index: map<string, string>, ts: seq<Token>): (r: seq<Token>)
    ensures |r| == |ts|
    ensures forall i :: 0 <= i < |ts| ==> r[i] == LocalizeToken(lib, base, index, ts[i])
  {
    if |ts| == 0 then [] else [LocalizeToken(lib, base, index, ts[0])] + LocalizeTokens(lib, base, index, ts[1..])
  }

  /** A token changed only in its link target, and only towards a local
      file. */
  predicate RetargetedOrSame(index: map<string, string>, before: Token, after: Token) {
    after == before
    || (before.Link? && after.Link? && after.text == before.text
        && !IsSkippedTarget(before.target) && IsLocalTarget(index, after.target))
  }

  /** ConvertLinksToLocal. An unparsable base URL leaves the Markdown alone.
      Otherwise the result is the input's token sequence re-rendered with
      each token passed through the callback: text outside links, link
      texts, and the order and number of links are unchanged, and a link
      target changes only to the local file LocalTarget picks for it. */
  function ConvertLinksToLocal(lib: UrlLib, markdown: string, baseUrl: string, index: map<string, string>): (r: string)
    ensures lib.parse(baseUrl).None? ==> r == markdown
    ensures exists ts ::
      r == Render(ts) && |ts| == |Tokenize(markdown)|
      && forall i :: 0 <= i < |ts| ==> RetargetedOrSame(index, Tokenize(markdown)[i], ts[i])
    ensures lib.parse(baseUrl).Some? ==>
      exists ts ::
        r == Render(ts) && |ts| == |Tokenize(markdown)|
        && forall i :: 0 <= i < |ts| ==> ts[i] == LocalizeToken(lib, lib.parse(baseUrl).value, index, Tokenize(markdown)[i])
  {
    var tokens := Tokenize(markdown);
    match lib.parse(baseUrl)
    case None =>
      assert forall i :: 0 <= i < |tokens| ==> RetargetedOrSame(index, tokens[i], tokens[i]);
      markdown
    case Some(base) =>
      var ts := LocalizeTokens(lib, base, index, tokens);
      assert forall i :: 0 <= i < |ts| ==> RetargetedOrSame(index, tokens[i], ts[i]);
      Render(ts)
  }

  // ---------------------------------------------------------------------
  // Lemmas

  lemma {:induction false} RenderAppend(a: seq<Token>, b: seq<Token>)
    ensures Render(a + b) == Render(a) + Render(b)
  {
    if |a| == 0 {
      assert a + b == b;
    } else {
      assert (a + b)[1..] == a[1..] + b;
      RenderAppend(a[1..], b);
    }
  }

  /** A link token followed by the tokens of the rest renders the whole. */
  lemma RenderLinkCons(s: string, len: nat, text: string, target: string, rest: seq<Token>)
    requires len <= |s| && HasPrefix(s, LinkText(text, target)) && len == |LinkText(text, target)|
    requires Render(rest) == s[len..]
    ensures Render([Link(text, target)] + rest) == s
  {
    assert ([Link(text, target)] + rest)[1..] == rest;
    assert s == s[..len] + s[len..];
  }

  /** A character token followed by the tokens of the rest renders the
      whole. */
  lemma RenderCharCons(s: string, rest: seq<Token>)
    requires |s| > 0 && Render(rest) == s[1..]
    ensures Render([Char(s[0])] + rest) == s
  {
    assert ([Char(s[0])] + rest)[1..] == rest;
    assert s == [s[0]] + s[1..];
  }

  /** The converse of MatchAt's contract: wherever a string starts with a
      well-formed link, the pattern matches exactly that link. */
  lemma MatchAtComplete(text: string, target: string, rest: string)
    requires ValidGroups(text, target)
    ensures MatchAt(LinkText(text, target) + rest) == Some(Match(text, target, |LinkText(text, target)|))
  {
    var s := LinkText(text, target) + rest;
    var close := |text| + 1;
    assert s[close] == ']';
    assert forall j :: 1 <= j < close ==> s[j] == text[j - 1];
    IndexOfFirst(s, ']', 1, close);
    assert s[close + 1] == '(';
    var end := close + 2 + |target|;
    assert s[end] == ')';
    assert forall j :: close + 2 <= j < end ==> s[j] == target[j - close - 2];
    IndexOfFirst(s, ')', close + 2, end);
    assert s[1..close] == text;
    assert s[close + 2..end] == target;
  }

  lemma {:induction false} IndexOfFirst(s: string, c: char, from: nat, k: nat)
    requires from <= k < |s| && s[k] == c
    requires forall j :: from <= j < k ==> s[j] != c
    ensures IndexOf(s, c, from) == Some(k)
    decreases k - from
  {
    if from < k {
      IndexOfFirst(s, c, from + 1, k);
    }
  }

  /** With an empty file index nothing is rewritten. */
  lemma EmptyIndexIsIdentity(lib: UrlLib, markdown: string, baseUrl: string)
    ensures ConvertLinksToLocal(lib, markdown, baseUrl, map[]) == markdown
  {
    if lib.parse(baseUrl).Some? {
      var tokens := Tokenize(markdown);
      var ts := LocalizeTokens(lib, lib.parse(baseUrl).value, map[], tokens);
      assert ts == tokens;
    }
  }

  /** Prepending a token the scan takes at the front keeps a scanned
      sequence scanned. */
  lemma ScannedCons(t: Token, rest: seq<Token>)
    requires Scanned(rest) && TokenAt(t, Render([t] + rest))
    ensures Scanned([t] + rest)
  {
    var ts := [t] + rest;
    forall i | 0 < i < |ts|
      ensures TokenAt(ts[i], Render(ts[i..]))
    {
      assert ts[i..] == rest[i - 1..];
      assert ts[i] == rest[i - 1];
    }
    assert ts[0..] == ts;
  }

  lemma ScannedTail(ts: seq<Token>)
    requires |ts| > 0 && Scanned(ts)
    ensures Scanned(ts[1..]) && TokenAt(ts[0], Render(ts))
  {
    var rest := ts[1..];
    forall i | 0 <= i < |rest|
      ensures TokenAt(rest[i], Render(rest[i..]))
    {
      assert rest[i..] == ts[i + 1..];
    }
    assert ts[0..] == ts;
  }

  /** The tokens Tokenize returns are the leftmost, non-overlapping matches:
      each character token stands where no link matches, and each link
      token is exactly the link that matches where it stands. */
  lemma {:induction false} TokenizeLeftmost(s: string)
    ensures Scanned(Tokenize(s))
    decreases |s|
  {
    if |s| > 0 {
      match MatchAt(s)
      case Some(m) =>
        var rest := Tokenize(s[m.len..]);
        assert Tokenize(s) == [Link(m.text, m.target)] + rest;
        TokenizeLeftmost(s[m.len..]);
        RenderLinkCons(s, m.len, m.text, m.target, rest);
        assert m == Match(m.text, m.target, |LinkText(m.text, m.target)|);
        ScannedCons(Link(m.text, m.target), rest);
      case None =>
        var rest := Tokenize(s[1..]);
        assert Tokenize(s) == [Char(s[0])] + rest;
        TokenizeLeftmost(s[1..]);
        RenderCharCons(s, rest);
        ScannedCons(Char(s[0]), rest);
    }
  }

  /** Tokenize is the only scanned token sequence that renders to `s`. */
  lemma {:induction false} TokenizeUnique(s: string, ts: seq<Token>)
    requires Render(ts) == s && Scanned(ts)
    ensures ts == Tokenize(s)
    decreases |s|
  {
    if |ts| > 0 {
      ScannedTail(ts);
      var rest := ts[1..];
      assert ts == [ts[0]] + rest;
      match ts[0]
      case Char(c) =>
        assert s == [c] + Render(rest);
        assert s[1..] == Render(rest);
        TokenizeUnique(s[1..], rest);
      case Link(text, target) =>
        var len := |LinkText(text, target)|;
        assert s == LinkText(text, target) + Render(rest);
        assert s[len..] == Render(rest);
        TokenizeUnique(s[len..], rest);
    }
  }

  /** A well-formed link at the start of the document comes out in place,
      with its text unchanged and its target replaced by the local file
      LocalTarget picks, or kept when it picks none. */
  lemma LinkRewrittenInPlace(lib: UrlLib, baseUrl: string, index: map<string, string>,
                             text: string, target: string, rest: string)
    requires ValidGroups(text, target) && lib.parse(baseUrl).Some?
    ensures var lt := LocalTarget(lib, lib.parse(baseUrl).value, index, target);
      HasPrefix(ConvertLinksToLocal(lib, LinkText(text, target) + rest, baseUrl, index),
                LinkText(text, if lt.Some? then lt.value else target))
  {
    var base := lib.parse(baseUrl).value;
    var s := LinkText(text, target) + rest;
    var len := |LinkText(text, target)|;
    MatchAtComplete(text, target, rest);
    assert s[len..] == rest;
    var tokens := Tokenize(s);
    assert tokens == [Link(text, target)] + Tokenize(rest);
    var ts := LocalizeTokens(lib, base, index, tokens);
    var lt := LocalTarget(lib, base, index, target);
    var first := LinkText(text, if lt.Some? then lt.value else target);
    assert ts[0] == Link(text, if lt.Some? then lt.value else target);
    assert Render(ts) == first + Render(ts[1..]);
  }
}

=== FILE: markdown.dfy ===
/** The post-processing of src/converter/converter.go: `Convert`'s guard
    and `cleanMarkdown` (at most two newlines in a row, no white space at
    either end). The HTML-to-Markdown library itself is a parameter. */
module Markdown {
  import opened Wrappers
  import opened Strs

  predicate TripleAt(s: string, i: nat)
    requires i + 2 < |s|
  {
    s[i] == '\n' && s[i + 1] == '\n' && s[i + 2] == '\n'
  }

  /** No three newlines in a row. */
  predicate NoTriple(s: string) {
    forall i: nat :: i + 2 < |s| ==> !TripleAt(s, i)
  }

  /** A string cleanMarkdown returns unchanged. */
  predicate IsClean(s: string) {
    NoTriple(s) && (|s| == 0 || (!IsSpace(s[0]) && !IsSpace(s[|s| - 1])))
  }

  function Newlines(n: nat): (r: string)
    ensures |r| == n && forall i :: 0 <= i < n ==> r[i] == '\n'
  {
    if n == 0 then "" else "\n" + Newlines(n - 1)
  }

  function Min(a: int, b: int): int {
    if a <= b then a else b
  }

  /** The number of newlines `s` starts with. */
  function LeadingNewlines(s: string): (k: nat)
    ensures k <= |s|
    ensures forall i :: 0 <= i < k ==> s[i] == '\n'
    ensures k < |s| ==> s[k] != '\n'
  {
    if |s| == 0 || s[0] != '\n' then 0 else 1 + LeadingNewlines(s[1..])
  }

  /** `regexp.MustCompile("\n{3,}").ReplaceAllString(s, "\n\n")` as the
      regexp package defines it: every maximal run of three or more newlines
      becomes exactly two. This is the reference the scanner below is proved
      against. */
  function ReplaceLongRuns(s: string): string
    decreases |s|
  {
    if |s| == 0 then ""
    else if s[0] != '\n' then [s[0]] + ReplaceLongRuns(s[1..])
    else
      var k := LeadingNewlines(s);
      Newlines(Min(k, 2)) + ReplaceLongRuns(s[k..])
  }

  /** The same rewrite as a left-to-right scan: a newline is dropped exactly
      when the two characters already emitted are newlines. `run` is the
      number of newlines (up to two) at the end of the output so far. */
  function Collapse(s: string, run: nat): (r: string)
    requires run <= 2
    ensures NoTriple(r)
    ensures |r| > 0 && r[0] == '\n' ==> run < 2
    ensures |r| > 1 && r[0] == '\n' && r[1] == '\n' ==> run == 0
    ensures NonSpace(r) == NonSpace(s)
  {
    if |s| == 0 then ""
    else if s[0] == '\n' && run == 2 then Collapse(s[1..], 2)
    else
      var next := if s[0] == '\n' then run + 1 else 0;
      var rest := Collapse(s[1..], next);
      var r := [s[0]] + rest;
      assert forall i: nat :: 0 < i && i + 2 < |r| ==> (TripleAt(r, i) <==> TripleAt(rest, i - 1));
      assert r[1..] == rest;
      r
  }

  /** cleanMarkdown. The result keeps every non-space character of the
      input in order, has no run of three newlines and no white space at
      either end. */
  function CleanMarkdown(s: string): (r: string)
    ensures IsClean(r)
    ensures NonSpace(r) == NonSpace(s)
  {
    var collapsed := Collapse(s, 0);
    TrimSpaceKeepsContent(collapsed);
    TrimSpaceNoTriple(collapsed);
    TrimSpace(collapsed)
  }

  datatype ConvertError = EmptyHtml | ConversionFailed(cause: string)

  /** Convert: empty HTML is refused before the library is called; a library
      failure is passed on; otherwise the library's Markdown is cleaned.
      `toMarkdown` stands for the html-to-markdown converter. */
  function Convert(toMarkdown: string -> Result<string, string>, html: string): (r: Result<string, ConvertError>)
    ensures html == "" <==> r == Failure(EmptyHtml)
    ensures html != "" && toMarkdown(html).Failure? ==> r == Failure(ConversionFailed(toMarkdown(html).error))
    ensures html != "" && toMarkdown(html).Success? ==>
      r.Success? && IsClean(r.value) && NonSpace(r.value) == NonSpace(toMarkdown(html).value)
    ensures html != "" && toMarkdown(html).Success? ==> r == Success(CleanMarkdown(toMarkdown(html).value))
  {
    if html == "" then Failure(EmptyHtml)
    else
      match toMarkdown(html)
      case Failure(e) => Failure(ConversionFailed(e))
      case Success(md) => Success(CleanMarkdown(md))
  }

  // ---------------------------------------------------------------------
  // Lemmas

  /** TrimSpace returns a slice, so it cannot create a run of newlines. */
  lemma TrimSpaceNoTriple(s: string)
    requires NoTriple(s)
    ensures NoTriple(TrimSpace(s))
  {
    var left := TrimLeftSpace(s);
    var k := |s| - |left|;
    NoTripleSlice(s, k, |s|);
    assert s[k..|s|] == left;
    var right := TrimRightSpace(left);
    NoTripleSlice(left, 0, |right|);
    assert left[0..|right|] == right;
  }

  lemma NoTripleSlice(s: string, a: nat, b: nat)
    requires a <= b <= |s|
    requires NoTriple(s)
    ensures NoTriple(s[a..b])
  {
    var t := s[a..b];
    forall i: nat | i + 2 < |t|
      ensures !TripleAt(t, i)
    {
      assert !TripleAt(s, a + i);
    }
  }

  /** Newlines after two have been emitted are dropped. */
  lemma {:induction false} CollapseDropRun(s: string, j: nat)
    requires j <= |s|
    requires forall i :: 0 <= i < j ==> s[i] == '\n'
    ensures Collapse(s, 2) == Collapse(s[j..], 2)
    decreases j
  {
    if j > 0 {
      CollapseDrop(s);
      assert s[1..][j - 1..] == s[j..];
      CollapseDropRun(s[1..], j - 1);
    }
  }

  lemma CollapseDrop(s: string)
    requires |s| > 0 && s[0] == '\n'
    ensures Collapse(s, 2) == Collapse(s[1..], 2)
  {
  }

  lemma CollapseKeep(s: string, run: nat)
    requires run < 2 && |s| > 0 && s[0] == '\n'
    ensures Collapse(s, run) == "\n" + Collapse(s[1..], run + 1)
  {
    assert [s[0]] == "\n";
  }

  /** The scan computes the regexp rewrite. */
  /** cleanMarkdown is exactly the regular-expression rewrite followed by
      strings.TrimSpace. */
  lemma CleanMarkdownIsTrimOfReplace(s: string)
    ensures CleanMarkdown(s) == TrimSpace(ReplaceLongRuns(s))
  {
    CollapseIsReplaceLongRuns(s);
  }

  lemma {:induction false} CollapseIsReplaceLongRuns(s: string)
    ensures Collapse(s, 0) == ReplaceLongRuns(s)
    decreases |s|
  {
    if |s| > 0 {
      if s[0] != '\n' {
        CollapseIsReplaceLongRuns(s[1..]);
      } else {
        var k := LeadingNewlines(s);
        CollapseIsReplaceLongRuns(s[k..]);
        CollapseKeep(s, 0);
        if k == 1 {
          CollapseAfterRun(s[1..], 1);
          assert Newlines(1) == "\n";
        } else {
          var tail := s[1..];
          CollapseKeep(tail, 1);
          assert tail[1..] == s[2..];
          CollapseDropRun(s[2..], k - 2);
          assert s[2..][k - 2..] == s[k..];
          assert Newlines(2) == "\n" + "\n";
        }
      }
    }
  }

  /** After a run ends (at a non-newline or the end), the run length no
      longer matters. */
  lemma CollapseAfterRun(s: string, run: nat)
    requires run <= 2
    requires |s| == 0 || s[0] != '\n'
    ensures Collapse(s, run) == Collapse(s, 0)
  {
  }

  /** A string with no run of three newlines passes the scan unchanged. */
  lemma {:induction false} CollapseFixed(s: string, run: nat)
    requires run <= 2 && NoTriple(s)
    requires run >= 1 ==> |s| == 0 || s[0] != '\n' || (run == 1 && (|s| == 1 || s[1] != '\n'))
    ensures Collapse(s, run) == s
    decreases |s|
  {
    if |s| > 0 {
      var next := if s[0] == '\n' then run + 1 else 0;
      assert forall i: nat :: i + 2 < |s| - 1 ==> (TripleAt(s[1..], i) <==> TripleAt(s, i + 1));
      if |s| > 2 && s[0] == '\n' && s[1] == '\n' {
        assert !TripleAt(s, 0);
      }
      CollapseFixed(s[1..], next);
      assert s == [s[0]] + s[1..];
    }
  }

  /** cleanMarkdown leaves a string alone exactly when it is already clean. */
  lemma CleanMarkdownFixedIff(s: string)
    ensures CleanMarkdown(s) == s <==> IsClean(s)
  {
    if IsClean(s) {
      CollapseFixed(s, 0);
      TrimSpaceFixed(s);
    }
  }

  /** cleanMarkdown is idempotent. */
  lemma CleanMarkdownIdempotent(s: string)
    ensures CleanMarkdown(CleanMarkdown(s)) == CleanMarkdown(s)
  {
    CleanMarkdownFixedIff(CleanMarkdown(s));
  }
}

=== FILE: query.dfy ===
/** `url.ParseQuery` followed by `url.Values.Encode`: the canonical query
    that normalizeURL (src/crawler/crawler.go) writes back into a URL.

    Go collects the pairs into a map from key to the list of its values,
    in the order they occur, and Encode writes the keys in sorted order,
    each with its values in that list order. The model keeps the pairs as a
    sequence and sorts them stably by key, which yields the same sequence.
    Percent-decoding and percent-encoding are left out (treated as the
    identity). */
module Query {
  import opened Strs
  import opened LexOrder

  datatype Param = Param(key: string, value: string)

  /** What ParseQuery can produce and Encode can write back unambiguously. */
  predicate WellFormed(p: Param) {
    '&' !in p.key && '=' !in p.key && ';' !in p.key && '&' !in p.value && ';' !in p.value
  }

  predicate AllWellFormed(ps: seq<Param>) {
    forall i :: 0 <= i < |ps| ==> WellFormed(ps[i])
  }

  /** One `key=value` segment: text up to the first '=' is the key, the rest
      the value ("" when there is no '='). */
  function ParseParam(segment: string): (p: Param)
    requires '&' !in segment && ';' !in segment
    ensures WellFormed(p)
    ensures '=' in segment ==> segment == p.key + "=" + p.value
    ensures '=' !in segment ==> p == Param(segment, "")
  {
    var kv := Cut(segment, '=');
    Param(kv.0, kv.1)
  }

  /** The segments between '&'s, skipping empty ones and ones holding a ';'
      (Go reports those as an error, which Query() discards). */
  function ParseSegments(segments: seq<string>): (ps: seq<Param>)
    requires forall i :: 0 <= i < |segments| ==> '&' !in segments[i]
    ensures |ps| <= |segments|
    ensures AllWellFormed(ps)
  {
    if |segments| == 0 then []
    else
      var rest := ParseSegments(segments[1..]);
      if segments[0] == "" || ';' in segments[0] then rest
      else [ParseParam(segments[0])] + rest
  }

  /** url.ParseQuery */
  function ParseQuery(raw: string): (ps: seq<Param>)
    ensures AllWellFormed(ps)
  {
    ParseSegments(Split(raw, '&'))
  }

  function Segment(p: Param): string {
    p.key + "=" + p.value
  }

  function Segments(ps: seq<Param>): (segs: seq<string>)
    ensures |segs| == |ps|
    ensures forall i :: 0 <= i < |ps| ==> segs[i] == Segment(ps[i])
  {
    if |ps| == 0 then [] else [Segment(ps[0])] + Segments(ps[1..])
  }

  /** url.Values.Encode on pairs already in output order. */
  function EncodeQuery(ps: seq<Param>): string {
    Join(Segments(ps), '&')
  }

  /** The values of `key`, in order. */
  function Values(ps: seq<Param>, key: string): seq<string> {
    if |ps| == 0 then []
    else (if ps[0].key == key then [ps[0].value] else []) + Values(ps[1..], key)
  }

  predicate SortedByKey(ps: seq<Param>) {
    forall i, j :: 0 <= i < j < |ps| ==> LexLe(ps[i].key, ps[j].key)
  }

  /** Places `p` before the first pair whose key is not below `p.key`. */
  function Insert(p: Param, ps: seq<Param>): (r: seq<Param>)
    ensures multiset(r) == multiset(ps) + multiset{p}
  {
    if |ps| == 0 then [p]
    else if LexLe(p.key, ps[0].key) then [p] + ps
    else
      assert ps == [ps[0]] + ps[1..];
      [ps[0]] + Insert(p, ps[1..])
  }

  /** A stable insertion sort by key. */
  function SortByKey(ps: seq<Param>): (r: seq<Param>)
    ensures multiset(r) == multiset(ps)
  {
    if |ps| == 0 then []
    else
      assert ps == [ps[0]] + ps[1..];
      Insert(ps[0], SortByKey(ps[1..]))
  }

  /** The query normalizeURL writes back into the URL. */
  function NormalizeQuery(raw: string): string {
    EncodeQuery(SortByKey(ParseQuery(raw)))
  }

  // ---------------------------------------------------------------------
  // Sorting

  /** A pair whose key is below every key of a sorted sequence can lead it. */
  lemma SortedCons(x: Param, ps: seq<Param>)
    requires SortedByKey(ps)
    requires forall q | q in ps :: LexLe(x.key, q.key)
    ensures SortedByKey([x] + ps)
  {
    var r := [x] + ps;
    forall i, j | 0 <= i < j < |r|
      ensures LexLe(r[i].key, r[j].key)
    {
      assert r[j] == ps[j - 1];
      if i > 0 {
        assert r[i] == ps[i - 1];
      }
    }
  }

  lemma {:induction false} InsertSorted(p: Param, ps: seq<Param>)
    requires SortedByKey(ps)
    ensures SortedByKey(Insert(p, ps))
  {
    if |ps| == 0 {
    } else if LexLe(p.key, ps[0].key) {
      forall q | q in ps
        ensures LexLe(p.key, q.key)
      {
        var j :| 0 <= j < |ps| && ps[j] == q;
        if j > 0 {
          LexLeTransitive(p.key, ps[0].key, q.key);
        }
      }
      SortedCons(p, ps);
    } else {
      LexLeTotal(p.key, ps[0].key);
      var rest := ps[1..];
      assert SortedByKey(rest) by {
        forall i, j | 0 <= i < j < |rest|
          ensures LexLe(rest[i].key, rest[j].key)
        {
          assert rest[i] == ps[i + 1] && rest[j] == ps[j + 1];
        }
      }
      InsertSorted(p, rest);
      var tail := Insert(p, rest);
      forall q | q in tail
        ensures LexLe(ps[0].key, q.key)
      {
        assert q in multiset(tail);
        assert q in multiset(rest) + multiset{p};
        if q != p {
          assert q in multiset(rest);
          var k :| 0 <= k < |rest| && rest[k] == q;
          assert ps[k + 1] == q;
        }
      }
      SortedCons(ps[0], tail);
    }
  }

  lemma {:induction false} SortByKeySorted(ps: seq<Param>)
    ensures SortedByKey(SortByKey(ps))
  {
    if |ps| > 0 {
      SortByKeySorted(ps[1..]);
      InsertSorted(ps[0], SortByKey(ps[1..]));
    }
  }

  lemma {:induction false} ValuesInsert(p: Param, ps: seq<Param>, key: string)
    ensures Values(Insert(p, ps), key) == (if p.key == key then [p.value] else []) + Values(ps, key)
  {
    if |ps| == 0 {
    } else if LexLe(p.key, ps[0].key) {
      assert ([p] + ps)[1..] == ps;
    } else {
      var tail := Insert(p, ps[1..]);
      assert ([ps[0]] + tail)[1..] == tail;
      ValuesInsert(p, ps[1..], key);
      if ps[0].key == key && p.key == key {
        LexLeReflexive(key);
      }
    }
  }

  /** The sort keeps, for every key, the values in their original order. */
  lemma {:induction false} SortByKeyStable(ps: seq<Param>, key: string)
    ensures Values(SortByKey(ps), key) == Values(ps, key)
  {
    if |ps| > 0 {
      SortByKeyStable(ps[1..], key);
      ValuesInsert(ps[0], SortByKey(ps[1..]), key);
    }
  }

  lemma {:induction false} ValuesNonEmpty(ps: seq<Param>, key: string)
    requires Values(ps, key) != []
    ensures exists j :: 0 <= j < |ps| && ps[j].key == key
  {
    if ps[0].key != key {
      ValuesNonEmpty(ps[1..], key);
      var j :| 0 <= j < |ps[1..]| && ps[1..][j].key == key;
      assert ps[j + 1].key == key;
    }
  }

  /** The first key of a sorted sequence is below every key it holds. */
  lemma FirstKeyIsLeast(ps: seq<Param>, key: string)
    requires SortedByKey(ps)
    requires Values(ps, key) != []
    ensures |ps| > 0 && LexLe(ps[0].key, key)
  {
    ValuesNonEmpty(ps, key);
    var j :| 0 <= j < |ps| && ps[j].key == key;
    if j == 0 {
      LexLeReflexive(key);
    }
  }

  lemma SortedTail(ps: seq<Param>)
    requires SortedByKey(ps) && |ps| > 0
    ensures SortedByKey(ps[1..])
  {
    var rest := ps[1..];
    forall i, j | 0 <= i < j < |rest|
      ensures LexLe(rest[i].key, rest[j].key)
    {
      assert rest[i] == ps[i + 1] && rest[j] == ps[j + 1];
    }
  }

  /** Two sorted sequences with the same values per key start alike. */
  lemma SameHead(a: seq<Param>, b: seq<Param>)
    requires SortedByKey(a) && SortedByKey(b) && |a| > 0
    requires forall key :: Values(a, key) == Values(b, key)
    ensures |b| > 0 && a[0] == b[0]
  {
    var ka := a[0].key;
    assert Values(a, ka) != [];
    FirstKeyIsLeast(b, ka);
    var kb := b[0].key;
    assert Values(b, kb) != [];
    FirstKeyIsLeast(a, kb);
    LexLeAntisymmetric(ka, kb);
    assert Values(a, ka)[0] == a[0].value;
    assert Values(b, ka)[0] == b[0].value;
  }

  /** A key-sorted sequence is determined by the values it holds per key. */
  lemma {:induction false} SortedUnique(a: seq<Param>, b: seq<Param>)
    requires SortedByKey(a) && SortedByKey(b)
    requires forall key :: Values(a, key) == Values(b, key)
    ensures a == b
  {
    if |a| == 0 {
      if |b| > 0 {
        SameHead(b, a);
      }
    } else {
      SameHead(a, b);
      forall key
        ensures Values(a[1..], key) == Values(b[1..], key)
      {
        var h := if a[0].key == key then [a[0].value] else [];
        assert Values(a, key) == h + Values(a[1..], key);
        assert Values(b, key) == h + Values(b[1..], key);
        assert Values(a, key) == Values(b, key);
        assert Values(a[1..], key) == Values(a, key)[|h|..];
        assert Values(b[1..], key) == Values(b, key)[|h|..];
      }
      SortedTail(a);
      SortedTail(b);
      SortedUnique(a[1..], b[1..]);
      assert a == [a[0]] + a[1..];
      assert b == [b[0]] + b[1..];
    }
  }

  /** Two pair sequences with the same values per key sort identically. */
  lemma SortByKeyCanonical(a: seq<Param>, b: seq<Param>)
    requires forall key :: Values(a, key) == Values(b, key)
    ensures SortByKey(a) == SortByKey(b)
  {
    SortByKeySorted(a);
    SortByKeySorted(b);
    forall key
      ensures Values(SortByKey(a), key) == Values(SortByKey(b), key)
    {
      SortByKeyStable(a, key);
      SortByKeyStable(b, key);
    }
    SortedUnique(SortByKey(a), SortByKey(b));
  }

  /** An already key-sorted sequence is left as it is. */
  lemma SortByKeyOfSorted(ps: seq<Param>)
    requires SortedByKey(ps)
    ensures SortByKey(ps) == ps
  {
    SortByKeySorted(ps);
    forall key
      ensures Values(SortByKey(ps), key) == Values(ps, key)
    {
      SortByKeyStable(ps, key);
    }
    SortedUnique(SortByKey(ps), ps);
  }

  // ---------------------------------------------------------------------
  // Parse / encode round trip

  lemma {:induction false} ParseSegmentsOfEncoded(ps: seq<Param>)
    requires AllWellFormed(ps)
    requires forall i :: 0 <= i < |Segments(ps)| ==> '&' !in Segments(ps)[i]
    ensures ParseSegments(Segments(ps)) == ps
  {
    if |ps| > 0 {
      var seg := Segment(ps[0]);
      assert Segments(ps)[0] == seg;
      assert Segments(ps)[1..] == Segments(ps[1..]);
      assert seg[|ps[0].key|] == '=';
      assert ';' !in seg by {
        assert seg == ps[0].key + "=" + ps[0].value;
      }
      var kv := Cut(seg, '=');
      assert '=' in seg;
      CutFirst(ps[0].key, ps[0].value, '=');
      ParseSegmentsOfEncoded(ps[1..]);
    }
  }

  lemma {:induction false} CutFirst(a: string, b: string, sep: char)
    requires sep !in a
    ensures Cut(a + [sep] + b, sep) == (a, b)
  {
    if |a| == 0 {
      assert a + [sep] + b == [sep] + b;
      assert ([sep] + b)[1..] == b;
    } else {
      assert (a + [sep] + b)[1..] == a[1..] + [sep] + b;
      CutFirst(a[1..], b, sep);
      assert [a[0]] + a[1..] == a;
    }
  }

  /** Encoding well-formed pairs and parsing the result gives the pairs back. */
  lemma EncodeParseRoundTrip(ps: seq<Param>)
    requires AllWellFormed(ps)
    ensures ParseQuery(EncodeQuery(ps)) == ps
  {
    var segs := Segments(ps);
    forall i | 0 <= i < |segs|
      ensures '&' !in segs[i]
    {
      assert segs[i] == ps[i].key + "=" + ps[i].value;
      assert WellFormed(ps[i]);
    }
    if |ps| == 0 {
      assert EncodeQuery(ps) == "";
      assert Split("", '&') == [""];
    } else {
      SplitJoin(segs, '&');
      ParseSegmentsOfEncoded(ps);
    }
  }

  lemma SortKeepsWellFormed(ps: seq<Param>)
    requires AllWellFormed(ps)
    ensures AllWellFormed(SortByKey(ps))
  {
    var r := SortByKey(ps);
    forall i | 0 <= i < |r|
      ensures WellFormed(r[i])
    {
      assert r[i] in multiset(ps);
      var k :| 0 <= k < |ps| && ps[k] == r[i];
    }
  }

  // ---------------------------------------------------------------------
  // Properties of the normalized query

  /** Re-reading the normalized query gives the original pairs sorted by
      key, each key's values in their original order. */
  lemma NormalizeQuerySorted(raw: string)
    ensures ParseQuery(NormalizeQuery(raw)) == SortByKey(ParseQuery(raw))
    ensures SortedByKey(ParseQuery(NormalizeQuery(raw)))
    ensures forall key :: Values(ParseQuery(NormalizeQuery(raw)), key) == Values(ParseQuery(raw), key)
  {
    var ps := ParseQuery(raw);
    SortKeepsWellFormed(ps);
    EncodeParseRoundTrip(SortByKey(ps));
    SortByKeySorted(ps);
    forall key
      ensures Values(SortByKey(ps), key) == Values(ps, key)
    {
      SortByKeyStable(ps, key);
    }
  }

  /** Queries that hold the same values per key normalize identically,
      whatever order their pairs came in. */
  lemma NormalizeQueryOrderInsensitive(a: string, b: string)
    requires forall key :: Values(ParseQuery(a), key) == Values(ParseQuery(b), key)
    ensures NormalizeQuery(a) == NormalizeQuery(b)
  {
    SortByKeyCanonical(ParseQuery(a), ParseQuery(b));
  }

  /** A query already written in canonical sorted form is left unchanged. */
  lemma NormalizeQueryOfSorted(raw: string)
    requires SortedByKey(ParseQuery(raw))
    requires EncodeQuery(ParseQuery(raw)) == raw
    ensures NormalizeQuery(raw) == raw
  {
    SortByKeyOfSorted(ParseQuery(raw));
  }

  /** Normalizing twice is the same as normalizing once. */
  lemma NormalizeQueryIdempotent(raw: string)
    ensures NormalizeQuery(NormalizeQuery(raw)) == NormalizeQuery(raw)
  {
    NormalizeQuerySorted(raw);
    var ps := SortByKey(ParseQuery(raw));
    SortByKeyOfSorted(ps);
  }
}

=== FILE: registry.dfy ===
/** The driver of cmd/main.go: choosing the start URL, the page callback
    that converts each crawled page and registers it under its URL, and the
    second pass that rewrites links against the finished registry. Callbacks
    run one at a time here; the mutexes of the program only serialise them. */
module Registry {
  import opened Wrappers
  import opened Strs
  import opened Urls
  import opened Crawler
  import opened Filenames
  import opened Markdown
  import opened Localizer

  // ---------------------------------------------------------------------
  // Arguments and the start URL

  /** The parsed command line; go-arg's defaults are depth 2, timeout 60 and
      delay 1. */
  datatype Args = Args(
    url: string,
    outputDir: string,
    single: string,
    maxDepth: int,
    excludedPaths: seq<string>,
    requestTimeout: int,
    requestDelay: int)

  datatype ArgsError = MissingOutputDir | MissingUrl

  datatype Start = Start(url: string, single: bool)

  /** The validation at the top of main and the start-URL choice: a
      non-empty `--single` overrides `--url` and switches to single-page
      mode. */
  function SelectStart(args: Args): (r: Result<Start, ArgsError>)
    ensures args.outputDir == "" <==> r == Failure(MissingOutputDir)
    ensures args.outputDir != "" && args.single == "" && args.url == "" <==> r == Failure(MissingUrl)
    ensures r.Success? ==> r.value.url != "" && (r.value.single <==> args.single != "")
    ensures r.Success? && args.single != "" ==> r.value.url == args.single
    ensures r.Success? && args.single == "" ==> r.value.url == args.url
  {
    if args.outputDir == "" then Failure(MissingOutputDir)
    else if args.single == "" && args.url == "" then Failure(MissingUrl)
    else if args.single != "" then Success(Start(args.single, true))
    else Success(Start(args.url, false))
  }

  /** The options main hands to NewCrawler. */
  function CrawlerOptionsFor(args: Args, start: Start): Options {
    Options(
      maxDepth := args.maxDepth,
      allowedDomains := [],
      userAgent := "CrawlDown/1.0",
      ignoreRobotsTxt := false,
      followExternalLinks := false,
      singlePage := start.single,
      requestTimeout := args.requestTimeout,
      requestDelay := args.requestDelay,
      excludedPaths := args.excludedPaths)
  }

  /** What the crawler ends up running with: the command-line values where
      they are non-zero, the crawler's defaults otherwise, the fixed user
      agent, and crawling confined to the start host. */
  lemma EffectiveOptions(lib: UrlLib, args: Args)
    requires SelectStart(args).Success?
    requires lib.parse(SelectStart(args).value.url).Some?
    ensures var start := SelectStart(args).value;
      var r := NewCrawler(lib, start.url, CrawlerOptionsFor(args, start));
      r.Success?
      && r.value.options.singlePage == (args.single != "")
      && r.value.collector.userAgent == DefaultUserAgent
      && r.value.collector.maxDepth == (if args.maxDepth == 0 then DefaultMaxDepth else args.maxDepth)
      && r.value.collector.requestTimeout == (if args.requestTimeout == 0 then DefaultRequestTimeout else args.requestTimeout)
      && r.value.collector.allowedDomains == [lib.parse(start.url).value.host]
  {
    var start := SelectStart(args).value;
    var opts := CrawlerOptionsFor(args, start);
    assert WithDefaults(opts).allowedDomains == [];
  }

  // ---------------------------------------------------------------------
  // Phase 1: the page callback

  datatype PageData = PageData(markdown: string, filename: string, pageUrl: string)

  /** The two maps and the counter the page callback updates. */
  datatype Registry = Registry(urlToFile: map<string, string>, pageData: map<string, PageData>, pageCount: nat)

  const EmptyRegistry := Registry(map[], map[], 0)

  /** The metadata block put before every page. */
  function Header(title: string, pageUrl: string): string {
    "# " + title + "\n\nURL: " + pageUrl + "\n\n---\n\n"
  }

  /** The key a page is registered under: its URL without one trailing '/'. */
  function RegistrationKey(pageUrl: string): (k: string)
    ensures k == pageUrl || k + "/" == pageUrl
    ensures !HasSuffix(pageUrl, "/") ==> k == pageUrl
    ensures HasSuffix(pageUrl, "/") ==> k + "/" == pageUrl
  {
    TrimSuffix(pageUrl, "/")
  }

  /** The two maps describe the same pages: identical keys, each key is its
      entry's registration key, and urlToFile holds the entry's file. */
  predicate Consistent(reg: Registry) {
    reg.urlToFile.Keys == reg.pageData.Keys
    && (forall k | k in reg.pageData ::
          reg.urlToFile[k] == reg.pageData[k].filename
          && RegistrationKey(reg.pageData[k].pageUrl) == k)
  }

  /** The entry a successfully converted page is stored as. */
  function EntryFor(lib: UrlLib, page: Page, converted: string): (d: PageData)
    ensures d.pageUrl == page.url
    ensures d.filename == GenerateFilename(lib, page.url)
    ensures HasPrefix(d.markdown, "# " + page.title + "\n\nURL: " + page.url)
    ensures HasSuffix(d.markdown, converted)
    ensures d.markdown == "# " + page.title + "\n\nURL: " + page.url + "\n\n---\n\n" + converted
  {
    var header := Header(page.title, page.url);
    assert header == ("# " + page.title + "\n\nURL: " + page.url) + "\n\n---\n\n";
    PageData(header + converted, GenerateFilename(lib, page.url), page.url)
  }

  /** Both maps written at `key`; every other key keeps its entry. */
  function Put(reg: Registry, key: string, filename: string, entry: PageData): (r: Registry)
    ensures r.pageCount == reg.pageCount
    ensures key in r.urlToFile && key in r.pageData
    ensures r.urlToFile[key] == filename && r.pageData[key] == entry
    ensures r.urlToFile.Keys == reg.urlToFile.Keys + {key}
    ensures r.pageData.Keys == reg.pageData.Keys + {key}
    ensures forall k | k in reg.urlToFile && k != key :: r.urlToFile[k] == reg.urlToFile[k]
    ensures forall k | k in reg.pageData && k != key :: r.pageData[k] == reg.pageData[k]
    ensures Consistent(reg) && filename == entry.filename && RegistrationKey(entry.pageUrl) == key ==> Consistent(r)
  {
    Registry(reg.urlToFile[key := filename], reg.pageData[key := entry], reg.pageCount)
  }

  /** The page callback. The counter always goes up by one; a page whose
      conversion fails is dropped; otherwise both maps are written at the
      page's key, replacing any earlier entry, and no other key changes. */
  function OnPage(toMarkdown: string -> Result<string, string>, lib: UrlLib, reg: Registry, page: Page): (r: Registry)
    ensures r.pageCount == reg.pageCount + 1
    ensures Convert(toMarkdown, page.content).Failure? ==>
      r.urlToFile == reg.urlToFile && r.pageData == reg.pageData
    ensures Convert(toMarkdown, page.content).Success? ==>
      var key := RegistrationKey(page.url);
      key in r.urlToFile && key in r.pageData
      && r.urlToFile[key] == GenerateFilename(lib, page.url) == r.pageData[key].filename
      && r.pageData[key] == EntryFor(lib, page, Convert(toMarkdown, page.content).value)
      && r.urlToFile.Keys == reg.urlToFile.Keys + {key}
      && r.pageData.Keys == reg.pageData.Keys + {key}
      && (forall k | k in reg.urlToFile && k != key :: r.urlToFile[k] == reg.urlToFile[k])
      && (forall k | k in reg.pageData && k != key :: r.pageData[k] == reg.pageData[k])
    ensures forall k :: k in r.pageData <==>
      k in reg.pageData || (Convert(toMarkdown, page.content).Success? && k == RegistrationKey(page.url))
    ensures Consistent(reg) ==> Consistent(r)
  {
    var count := reg.pageCount + 1;
    match Convert(toMarkdown, page.content)
    case Failure(_) => reg.(pageCount := count)
    case Success(converted) =>
      var filename := GenerateFilename(lib, page.url);
      var key := RegistrationKey(page.url);
      Put(reg.(pageCount := count), key, filename, EntryFor(lib, page, converted))
  }

  /** Phase 1: the page callback over the crawled pages in order. */
  function Phase1(toMarkdown: string -> Result<string, string>, lib: UrlLib, pages: seq<Page>): (r: Registry)
    ensures Consistent(r)
    ensures r.pageCount == |pages|
  {
    if |pages| == 0 then EmptyRegistry
    else OnPage(toMarkdown, lib, Phase1(toMarkdown, lib, pages[..|pages| - 1]), pages[|pages| - 1])
  }

  /** Whether the page callback keeps a page. */
  predicate Converted(toMarkdown: string -> Result<string, string>, page: Page) {
    Convert(toMarkdown, page.content).Success?
  }

  /** A key is registered after phase 1 exactly when some page with that
      key converted. */
  /** Some page among the first `n` with this key converted. */
  predicate RegisteredAmong(toMarkdown: string -> Result<string, string>, pages: seq<Page>, n: nat, key: string)
    requires n <= |pages|
  {
    exists i | 0 <= i < n :: Converted(toMarkdown, pages[i]) && RegistrationKey(pages[i].url) == key
  }

  lemma {:induction false} Phase1Keys(toMarkdown: string -> Result<string, string>, lib: UrlLib, pages: seq<Page>, key: string)
    ensures key in Phase1(toMarkdown, lib, pages).pageData <==> RegisteredAmong(toMarkdown, pages, |pages|, key)
  {
    if |pages| > 0 {
      var n := |pages| - 1;
      var init := pages[..n];
      Phase1Keys(toMarkdown, lib, init, key);
      RegisteredPrefix(toMarkdown, pages, n, key);
    }
  }

  lemma RegisteredPrefix(toMarkdown: string -> Result<string, string>, pages: seq<Page>, n: nat, key: string)
    requires n < |pages|
    ensures RegisteredAmong(toMarkdown, pages, n + 1, key) <==>
      RegisteredAmong(toMarkdown, pages[..n], n, key)
      || (Converted(toMarkdown, pages[n]) && RegistrationKey(pages[n].url) == key)
  {
    assert forall i | 0 <= i < n :: pages[..n][i] == pages[i];
  }

  /** The write the page callback makes for one page: the page's key and
      entry, or nothing when conversion fails. */
  function Contribution(toMarkdown: string -> Result<string, string>, lib: UrlLib, page: Page): (w: Option<(string, PageData)>)
    ensures w.Some? <==> Converted(toMarkdown, page)
    ensures w.Some? ==>
      w.value.0 == RegistrationKey(page.url) && w.value.1 == EntryFor(lib, page, Convert(toMarkdown, page.content).value)
  {
    match Convert(toMarkdown, page.content)
    case Failure(_) => None
    case Success(converted) => Some((RegistrationKey(page.url), EntryFor(lib, page, converted)))
  }

  function Contributions(toMarkdown: string -> Result<string, string>, lib: UrlLib, pages: seq<Page>): (ws: seq<Option<(string, PageData)>>)
    ensures |ws| == |pages|
    ensures forall j | 0 <= j < |pages| :: ws[j] == Contribution(toMarkdown, lib, pages[j])
  {
    seq(|pages|, j requires 0 <= j < |pages| => Contribution(toMarkdown, lib, pages[j]))
  }

  /** A map after a sequence of optional writes, in order. */
  function ApplyWrites<V>(writes: seq<Option<(string, V)>>): map<string, V> {
    if |writes| == 0 then map[]
    else
      var m := ApplyWrites(writes[..|writes| - 1]);
      match writes[|writes| - 1]
      case None => m
      case Some(w) => m[w.0 := w.1]
  }

  /** In a sequence of writes, a key ends up with the value of its last
      write. */
  lemma {:induction false} LastWriteWins<V>(writes: seq<Option<(string, V)>>, i: nat)
    requires i < |writes| && writes[i].Some?
    requires forall j | i < j < |writes| :: writes[j].Some? ==> writes[j].value.0 != writes[i].value.0
    ensures writes[i].value.0 in ApplyWrites(writes)
    ensures ApplyWrites(writes)[writes[i].value.0] == writes[i].value.1
  {
    var n := |writes| - 1;
    if i < n {
      var init := writes[..n];
      assert forall j | i < j < |init| :: init[j] == writes[j];
      LastWriteWins(init, i);
    }
  }

  /** Phase 1's pageData is the fold of the pages' writes. */
  lemma {:induction false} Phase1Writes(toMarkdown: string -> Result<string, string>, lib: UrlLib, pages: seq<Page>)
    ensures Phase1(toMarkdown, lib, pages).pageData == ApplyWrites(Contributions(toMarkdown, lib, pages))
  {
    if |pages| > 0 {
      var n := |pages| - 1;
      var init := pages[..n];
      Phase1Writes(toMarkdown, lib, init);
      var ws := Contributions(toMarkdown, lib, pages);
      assert ws[..n] == Contributions(toMarkdown, lib, init);
      OnPageWrite(toMarkdown, lib, Phase1(toMarkdown, lib, init), pages[n]);
    }
  }

  /** The page callback's effect on pageData is its page's write. */
  lemma OnPageWrite(toMarkdown: string -> Result<string, string>, lib: UrlLib, reg: Registry, page: Page)
    ensures var w := Contribution(toMarkdown, lib, page);
      OnPage(toMarkdown, lib, reg, page).pageData
        == (if w.Some? then reg.pageData[w.value.0 := w.value.1] else reg.pageData)
  {
  }

  /** Last writer wins: the entry under a key comes from the last page with
      that key whose conversion succeeded. */
  lemma Phase1LastWriterWins(
    toMarkdown: string -> Result<string, string>, lib: UrlLib, pages: seq<Page>, i: nat)
    requires i < |pages| && Converted(toMarkdown, pages[i])
    requires forall j | i < j < |pages| ::
      RegistrationKey(pages[j].url) == RegistrationKey(pages[i].url) ==> !Converted(toMarkdown, pages[j])
    ensures var reg := Phase1(toMarkdown, lib, pages);
      var key := RegistrationKey(pages[i].url);
      key in reg.pageData
      && reg.pageData[key] == EntryFor(lib, pages[i], Convert(toMarkdown, pages[i].content).value)
      && reg.urlToFile[key] == GenerateFilename(lib, pages[i].url)
  {
    var ws := Contributions(toMarkdown, lib, pages);
    Phase1Writes(toMarkdown, lib, pages);
    LastWriteWins(ws, i);
  }

  // ---------------------------------------------------------------------
  // Phase 2: link conversion

  /** Every visited key holds its page's rendering. */
  ghost predicate Rendered(snapshot: map<string, PageData>, render: PageData -> string, docs: map<string, string>) {
    forall k | k in docs :: k in snapshot && docs[k] == render(snapshot[k])
  }

  /** `succeeded` holds exactly the visited keys whose write succeeded. */
  ghost predicate Tracks(snapshot: map<string, PageData>, written: (string, string) -> bool,
                         docs: map<string, string>, succeeded: set<string>) {
    forall k :: k in succeeded <==> k in docs && k in snapshot && written(snapshot[k].filename, docs[k])
  }

  /** The state of the second pass's loop: the keys not yet visited are
      `remaining`; every visited key is rendered, `succeeded` holds exactly
      the visited keys whose write succeeded, and `count` is their number. */
  ghost predicate Progress(snapshot: map<string, PageData>, render: PageData -> string, written: (string, string) -> bool,
                           remaining: set<string>, docs: map<string, string>, succeeded: set<string>, count: nat) {
    remaining <= snapshot.Keys
    && docs.Keys == snapshot.Keys - remaining
    && Rendered(snapshot, render, docs)
    && Tracks(snapshot, written, docs, succeeded)
    && count == |succeeded|
  }

  /** Visiting one more key keeps the loop state. */
  lemma ProgressStep(snapshot: map<string, PageData>, render: PageData -> string, written: (string, string) -> bool,
                     remaining: set<string>, docs: map<string, string>, succeeded: set<string>, count: nat, k: string)
    requires Progress(snapshot, render, written, remaining, docs, succeeded, count) && k in remaining
    ensures var markdown := render(snapshot[k]);
      var ok := written(snapshot[k].filename, markdown);
      Progress(snapshot, render, written, remaining - {k}, docs[k := markdown],
               if ok then succeeded + {k} else succeeded, if ok then count + 1 else count)
  {
    var markdown := render(snapshot[k]);
    RenderedStep(snapshot, render, docs, k);
    TracksStep(snapshot, written, docs, succeeded, k, markdown);
    KeysStep(snapshot.Keys, remaining, docs, k, markdown);
  }

  lemma KeysStep(keys: set<string>, remaining: set<string>, docs: map<string, string>, k: string, markdown: string)
    requires remaining <= keys && docs.Keys == keys - remaining && k in remaining
    ensures remaining - {k} <= keys
    ensures docs[k := markdown].Keys == keys - (remaining - {k})
  {
  }

  lemma RenderedStep(snapshot: map<string, PageData>, render: PageData -> string, docs: map<string, string>, k: string)
    requires Rendered(snapshot, render, docs) && k in snapshot
    ensures Rendered(snapshot, render, docs[k := render(snapshot[k])])
  {
  }

  lemma TracksStep(snapshot: map<string, PageData>, written: (string, string) -> bool,
                   docs: map<string, string>, succeeded: set<string>, k: string, markdown: string)
    requires Tracks(snapshot, written, docs, succeeded) && k !in docs && k in snapshot
    ensures k !in succeeded
    ensures Tracks(snapshot, written, docs[k := markdown],
                   if written(snapshot[k].filename, markdown) then succeeded + {k} else succeeded)
  {
  }

  /** When no key remains, the loop state is the second pass's result. */
  lemma ProgressDone(snapshot: map<string, PageData>, render: PageData -> string, written: (string, string) -> bool,
                     docs: map<string, string>, succeeded: set<string>, count: nat)
    requires Progress(snapshot, render, written, {}, docs, succeeded, count)
    ensures docs.Keys == snapshot.Keys
    ensures forall k | k in docs :: docs[k] == render(snapshot[k])
    ensures forall k :: k in succeeded <==> k in docs && written(snapshot[k].filename, docs[k])
    ensures count == |succeeded| <= |snapshot|
  {
    SubsetCard(succeeded, snapshot.Keys);
  }

  /** The loop of the second pass, for any per-page rewrite `render`: each
      entry of the snapshot is rendered and written, and `succeeded` holds the
      keys whose write succeeded. */
  method RenderAll(snapshot: map<string, PageData>, render: PageData -> string, written: (string, string) -> bool)
    returns (docs: map<string, string>, succeeded: set<string>, successCount: nat)
    ensures docs.Keys == snapshot.Keys
    ensures forall k | k in docs :: docs[k] == render(snapshot[k])
    ensures forall k :: k in succeeded <==> k in docs && written(snapshot[k].filename, docs[k])
    ensures successCount == |succeeded| <= |snapshot|
  {
    var remaining := snapshot.Keys;
    docs := map[];
    succeeded := {};
    successCount := 0;
    while remaining != {}
      invariant Progress(snapshot, render, written, remaining, docs, succeeded, successCount)
      decreases remaining
    {
      var k :| k in remaining;
      ProgressStep(snapshot, render, written, remaining, docs, succeeded, successCount, k);
      var data := snapshot[k];
      var markdown := render(data);
      docs := docs[k := markdown];
      if written(data.filename, markdown) {
        successCount := successCount + 1;
        succeeded := succeeded + {k};
      }
      remaining := remaining - {k};
    }
    ProgressDone(snapshot, render, written, docs, succeeded, successCount);
  }

  /** The second pass over a snapshot of the registry. Every registered page
      gets its Markdown with links pointed at the snapshot's files; `written`
      stands for the outcome of writing a file. `succeeded` holds the pages
      whose write succeeded and the success count is their number. */
  method SecondPass(lib: UrlLib, reg: Registry, written: (string, string) -> bool)
    returns (docs: map<string, string>, succeeded: set<string>, successCount: nat)
    ensures docs.Keys == reg.pageData.Keys
    ensures forall k | k in docs ::
      docs[k] == ConvertLinksToLocal(lib, reg.pageData[k].markdown, reg.pageData[k].pageUrl, reg.urlToFile)
    ensures forall k :: k in succeeded <==> k in docs && written(reg.pageData[k].filename, docs[k])
    ensures successCount == |succeeded| <= |reg.pageData|
  {
    var index := reg.urlToFile;
    docs, succeeded, successCount := RenderAll(reg.pageData,
      (d: PageData) => ConvertLinksToLocal(lib, d.markdown, d.pageUrl, index), written);
  }

  lemma SubsetCard(a: set<string>, b: set<string>)
    requires a <= b
    ensures |a| <= |b|
  {
    if a != {} {
      var x :| x in a;
      SubsetCard(a - {x}, b - {x});
    }
  }

  // ---------------------------------------------------------------------
  // End to end

  /** A link in a registered page to another crawled page, written as the
      page's own absolute URL without query or fragment, comes out of the
      second pass pointing at that page's file. */
  lemma LinkToCrawledPageIsLocal(
    toMarkdown: string -> Result<string, string>, lib: UrlLib, pages: seq<Page>, i: nat,
    base: Url, text: string, target: string)
    requires i < |pages| && Converted(toMarkdown, pages[i])
    requires forall j | i < j < |pages| ::
      RegistrationKey(pages[j].url) == RegistrationKey(pages[i].url) ==> !Converted(toMarkdown, pages[j])
    requires !IsSkippedTarget(target) && lib.parse(target).Some?
    requires var u := lib.parse(target).value;
      IsAbs(u) && u.rawQuery == "" && u.fragment == "" && CleanKey(u) == RegistrationKey(pages[i].url)
    ensures var reg := Phase1(toMarkdown, lib, pages);
      LocalizeToken(lib, base, reg.urlToFile, Link(text, target)) == Link(text, GenerateFilename(lib, pages[i].url))
  {
    Phase1LastWriterWins(toMarkdown, lib, pages, i);
    var index := Phase1(toMarkdown, lib, pages).urlToFile;
    var u := lib.parse(target).value;
    var file := GenerateFilename(lib, pages[i].url);
    assert Absolute(lib, base, u) == u;
    assert FullKey(u) in index && index[FullKey(u)] == file;
    assert LocalTarget(lib, base, index, target) == Some(WithFragment(file, u.fragment));
  }

  /** How the key a page is registered under relates to the keys a link to
      the same URL is looked up with. For an absolute URL with a host, a
      rooted path and no fragment (the shape of a crawled page's URL), the
      keys agree when there is no query, or when the path does not end in
      '/'. When the path ends in '/' and there is a query, the registration
      key keeps that '/' while both lookup keys drop it, so no link to such
      a page ever finds the page's own entry. */
  lemma RegistrationMatchesLookup(u: Url)
    requires u.scheme != "" && u.host != "" && u.fragment == ""
    requires |u.path| > 0 && u.path[0] == '/'
    requires !HasSuffix(u.rawQuery, "/")
    ensures u.rawQuery == "" ==> RegistrationKey(Serialize(u)) == FullKey(u) == CleanKey(u)
    ensures u.rawQuery != "" && !HasSuffix(u.path, "/") ==> RegistrationKey(Serialize(u)) == FullKey(u)
    ensures u.rawQuery != "" && HasSuffix(u.path, "/") ==>
      RegistrationKey(Serialize(u)) != FullKey(u) && RegistrationKey(Serialize(u)) != CleanKey(u)
  {
    var query := if u.rawQuery != "" then "?" + u.rawQuery else "";
    SerializeCrawled(u);
    var prefix := u.scheme + "://" + u.host;
    TrimSlashAppend(prefix, u.path);
    assert CleanKey(u) == prefix + TrimSuffix(u.path, "/");
    if u.rawQuery != "" {
      var s := SchemeHostPath(u) + query;
      assert s[|s| - 1] == u.rawQuery[|u.rawQuery| - 1];
      assert RegistrationKey(s) == s;
      assert FullKey(u) == prefix + TrimSuffix(u.path, "/") + query;
      if HasSuffix(u.path, "/") {
        assert |FullKey(u)| + 1 == |s|;
      } else {
        assert s == prefix + u.path + query;
      }
    }
  }

  /** The string form of a crawled page's URL. */
  lemma SerializeCrawled(u: Url)
    requires u.scheme != "" && u.host != "" && u.fragment == ""
    requires |u.path| > 0 && u.path[0] == '/'
    ensures Serialize(u) == SchemeHostPath(u) + (if u.rawQuery != "" then "?" + u.rawQuery else "")
  {
    assert u.scheme + ":" + "//" + u.host == u.scheme + "://" + u.host;
  }

  /** Trimming a trailing '/' off a string with a non-empty tail only touches
      the tail. */
  lemma TrimSlashAppend(a: string, b: string)
    requires |b| > 0
    ensures TrimSuffix(a + b, "/") == a + TrimSuffix(b, "/")
  {
    assert (a + b)[|a + b| - 1] == b[|b| - 1];
    if HasSuffix(b, "/") {
      assert (a + b)[..|a + b| - 1] == a + b[..|b| - 1];
    }
  }
}

=== FILE: strs.dfy ===
/** The few operations of Go's `strings` package that the crawler and the
    converter rely on, over `string` (a sequence of Unicode scalar values).
    Go works on UTF-8 bytes; every operation used here either looks only at
    ASCII separators or compares whole prefixes, so byte-level and
    character-level results coincide. */
module Strs {

  /** strings.HasPrefix */
  predicate HasPrefix(s: string, p: string) {
    |p| <= |s| && s[..|p|] == p
  }

  /** strings.HasSuffix */
  predicate HasSuffix(s: string, p: string) {
    |p| <= |s| && s[|s| - |p|..] == p
  }

  /** strings.TrimPrefix: removes `p` once, if present. */
  function TrimPrefix(s: string, p: string): (r: string)
    ensures HasPrefix(s, p) ==> p + r == s
    ensures !HasPrefix(s, p) ==> r == s
  {
    if HasPrefix(s, p) then s[|p|..] else s
  }

  /** strings.TrimSuffix: removes `p` once, if present. */
  function TrimSuffix(s: string, p: string): (r: string)
    ensures HasSuffix(s, p) ==> r + p == s
    ensures !HasSuffix(s, p) ==> r == s
  {
    if HasSuffix(s, p) then s[..|s| - |p|] else s
  }

  /** Number of occurrences of `c` in `s`. */
  function Count(s: string, c: char): (n: nat)
    ensures n <= |s|
    ensures n == 0 <==> c !in s
  {
    if |s| == 0 then 0
    else (if s[0] == c then 1 else 0) + Count(s[1..], c)
  }

  /** strings.Split with a one-character separator. */
  function Split(s: string, sep: char): (parts: seq<string>)
    ensures |parts| == Count(s, sep) + 1
    ensures forall i :: 0 <= i < |parts| ==> sep !in parts[i]
  {
    if |s| == 0 then [""]
    else
      var rest := Split(s[1..], sep);
      if s[0] == sep then [""] + rest
      else [[s[0]] + rest[0]] + rest[1..]
  }

  /** strings.Join with a one-character separator. */
  function Join(parts: seq<string>, sep: char): string {
    if |parts| == 0 then ""
    else if |parts| == 1 then parts[0]
    else parts[0] + [sep] + Join(parts[1..], sep)
  }

  /** strings.Cut: the text before and after the first `sep`; when `sep`
      does not occur, the whole string and "". */
  function Cut(s: string, sep: char): (r: (string, string))
    ensures sep !in r.0
    ensures sep in s ==> s == r.0 + [sep] + r.1
    ensures sep !in s ==> r == (s, "")
  {
    if |s| == 0 then ("", "")
    else if s[0] == sep then ("", s[1..])
    else
      var rest := Cut(s[1..], sep);
      assert s == [s[0]] + s[1..];
      ([s[0]] + rest.0, rest.1)
  }

  /** strings.ReplaceAll with one-character old and new strings. */
  function ReplaceChar(s: string, from: char, to: char): (r: string)
    ensures |r| == |s|
    ensures forall i :: 0 <= i < |s| ==> r[i] == (if s[i] == from then to else s[i])
  {
    if |s| == 0 then ""
    else [if s[0] == from then to else s[0]] + ReplaceChar(s[1..], from, to)
  }

  /** unicode.IsSpace: the Latin-1 spaces plus the other White_Space code points. */
  predicate IsSpace(c: char) {
    c == '\t' || c == '\n' || c == '\U{000B}' || c == '\U{000C}' || c == '\r' || c == ' '
    || c == '\U{0085}' || c == '\U{00A0}' || c == '\U{1680}'
    || ('\U{2000}' <= c <= '\U{200A}')
    || c == '\U{2028}' || c == '\U{2029}' || c == '\U{202F}' || c == '\U{205F}' || c == '\U{3000}'
  }

  /** The characters of `s` that are not white space, in order. */
  function NonSpace(s: string): string {
    if |s| == 0 then ""
    else (if IsSpace(s[0]) then "" else [s[0]]) + NonSpace(s[1..])
  }

  /** Leading white space removed: `r` is the suffix of `s` that starts at its
      first non-space character. */
  function TrimLeftSpace(s: string): (r: string)
    ensures |r| <= |s| && r == s[|s| - |r|..]
    ensures forall i :: 0 <= i < |s| - |r| ==> IsSpace(s[i])
    ensures |r| == 0 || !IsSpace(r[0])
  {
    if |s| == 0 || !IsSpace(s[0]) then s
    else
      var r := TrimLeftSpace(s[1..]);
      assert s[1..][|s| - 1 - |r|..] == s[|s| - |r|..];
      assert forall i :: 1 <= i < |s| - |r| ==> s[i] == s[1..][i - 1];
      r
  }

  /** Trailing white space removed: `r` is the prefix of `s` that ends at its
      last non-space character. */
  function TrimRightSpace(s: string): (r: string)
    ensures |r| <= |s| && r == s[..|r|]
    ensures forall i :: |r| <= i < |s| ==> IsSpace(s[i])
    ensures |r| == 0 || !IsSpace(r[|r| - 1])
  {
    if |s| == 0 || !IsSpace(s[|s| - 1]) then s else TrimRightSpace(s[..|s| - 1])
  }

  /** strings.TrimSpace */
  function TrimSpace(s: string): (r: string)
    ensures |r| == 0 || (!IsSpace(r[0]) && !IsSpace(r[|r| - 1]))
  {
    TrimRightSpace(TrimLeftSpace(s))
  }

  // ---------------------------------------------------------------------
  // Lemmas

  lemma {:induction false} CountAppend(a: string, b: string, c: char)
    ensures Count(a + b, c) == Count(a, c) + Count(b, c)
  {
    if |a| == 0 {
      assert a + b == b;
    } else {
      assert (a + b)[1..] == a[1..] + b;
      CountAppend(a[1..], b, c);
    }
  }

  /** Joining the parts of a split gives back the original string. */
  lemma {:induction false} JoinSplit(s: string, sep: char)
    ensures Join(Split(s, sep), sep) == s
  {
    if |s| > 0 {
      var rest := Split(s[1..], sep);
      JoinSplit(s[1..], sep);
      if s[0] == sep {
        JoinEmptyHead(rest, sep);
      } else {
        JoinExtendHead(s[0], rest, sep);
      }
      assert s == [s[0]] + s[1..];
    }
  }

  /** Joining after an empty first part puts a separator in front. */
  lemma JoinEmptyHead(parts: seq<string>, sep: char)
    requires |parts| > 0
    ensures Join([""] + parts, sep) == [sep] + Join(parts, sep)
  {
    var all := [""] + parts;
    assert all[1..] == parts;
    assert all[0] == "";
  }

  /** Joining after growing the first part by `c` grows the result by `c`. */
  lemma JoinExtendHead(c: char, parts: seq<string>, sep: char)
    requires |parts| > 0
    ensures Join([[c] + parts[0]] + parts[1..], sep) == [c] + Join(parts, sep)
  {
    var all := [[c] + parts[0]] + parts[1..];
    assert all[1..] == parts[1..];
    if |parts| > 1 {
      assert Join(all, sep) == [c] + parts[0] + [sep] + Join(parts[1..], sep);
    }
  }

  /** A separator-free piece is its own split. */
  lemma {:induction false} SplitNoSep(a: string, sep: char)
    requires sep !in a
    ensures Split(a, sep) == [a]
  {
    if |a| > 0 {
      SplitNoSep(a[1..], sep);
      assert [a[0]] + a[1..] == a;
    }
  }

  /** Splitting at the first separator peels off the text before it. */
  lemma {:induction false} SplitFirst(a: string, b: string, sep: char)
    requires sep !in a
    ensures Split(a + [sep] + b, sep) == [a] + Split(b, sep)
  {
    if |a| == 0 {
      assert a + [sep] + b == [sep] + b;
      assert ([sep] + b)[1..] == b;
    } else {
      assert (a + [sep] + b)[1..] == a[1..] + [sep] + b;
      SplitFirst(a[1..], b, sep);
      assert [a[0]] + a[1..] == a;
    }
  }

  /** Splitting a join of separator-free parts gives back the parts. */
  lemma {:induction false} SplitJoin(parts: seq<string>, sep: char)
    requires |parts| > 0
    requires forall i :: 0 <= i < |parts| ==> sep !in parts[i]
    ensures Split(Join(parts, sep), sep) == parts
  {
    if |parts| == 1 {
      SplitNoSep(parts[0], sep);
    } else {
      SplitJoin(parts[1..], sep);
      SplitFirst(parts[0], Join(parts[1..], sep), sep);
      assert [parts[0]] + parts[1..] == parts;
    }
  }

  lemma {:induction false} NonSpaceAppend(a: string, b: string)
    ensures NonSpace(a + b) == NonSpace(a) + NonSpace(b)
  {
    if |a| == 0 {
      assert a + b == b;
    } else {
      assert (a + b)[1..] == a[1..] + b;
      NonSpaceAppend(a[1..], b);
    }
  }

  lemma {:induction false} NonSpaceOfSpaces(s: string)
    requires forall i :: 0 <= i < |s| ==> IsSpace(s[i])
    ensures NonSpace(s) == ""
  {
    if |s| > 0 {
      NonSpaceOfSpaces(s[1..]);
    }
  }

  /** Dropping a white-space prefix or suffix keeps the non-space content. */
  lemma DropSpacesKeepsContent(pre: string, mid: string, post: string)
    requires forall i :: 0 <= i < |pre| ==> IsSpace(pre[i])
    requires forall i :: 0 <= i < |post| ==> IsSpace(post[i])
    ensures NonSpace(pre + mid + post) == NonSpace(mid)
  {
    NonSpaceAppend(pre + mid, post);
    NonSpaceAppend(pre, mid);
    NonSpaceOfSpaces(pre);
    NonSpaceOfSpaces(post);
  }

  lemma {:induction false} TrimLeftKeepsContent(s: string)
    ensures NonSpace(TrimLeftSpace(s)) == NonSpace(s)
  {
    if |s| > 0 && IsSpace(s[0]) {
      TrimLeftKeepsContent(s[1..]);
    }
  }

  lemma TrimRightKeepsContent(s: string)
    ensures NonSpace(TrimRightSpace(s)) == NonSpace(s)
  {
    var r := TrimRightSpace(s);
    var post := s[|r|..];
    assert s == "" + r + post;
    forall i | 0 <= i < |post|
      ensures IsSpace(post[i])
    {
      assert post[i] == s[|r| + i];
    }
    DropSpacesKeepsContent("", r, post);
  }

  /** Trimming white space removes white space only. */
  lemma TrimSpaceKeepsContent(s: string)
    ensures NonSpace(TrimSpace(s)) == NonSpace(s)
  {
    TrimLeftKeepsContent(s);
    TrimRightKeepsContent(TrimLeftSpace(s));
  }

  /** A string with no white space at either end is left alone by TrimSpace. */
  lemma TrimSpaceFixed(s: string)
    requires |s| == 0 || (!IsSpace(s[0]) && !IsSpace(s[|s| - 1]))
    ensures TrimSpace(s) == s
  {
  }
}

=== FILE: urls.dfy ===
/** Parsed URLs and the parts of Go's `net/url` the model treats as given.

    `url.Parse` and `(*URL).ResolveReference` (section 5.2 of RFC 3986) are
    not modelled: every operation that needs them takes a `UrlLib` whose
    `parse` and `resolve` fields stand for them, so each property proved
    here holds for every parser and resolver. */
module Urls {
  import opened Wrappers
  import opened Strs

  /** The fields of Go's `url.URL` the core reads. `path` and `fragment` are
      the decoded forms, `rawQuery` the query text without the '?'. */
  datatype Url = Url(scheme: string, host: string, path: string, rawQuery: string, fragment: string)

  /** The URL library the core calls into. `parse` returns None where
      `url.Parse` returns an error. */
  datatype UrlLib = UrlLib(parse: string -> Option<Url>, resolve: (Url, Url) -> Url)

  /** (*URL).IsAbs */
  predicate IsAbs(u: Url) {
    u.scheme != ""
  }

  /** (*URL).String for URLs without user info, opaque part or forced empty
      query, with the escaping of path and fragment left out. */
  function Serialize(u: Url): (r: string)
    ensures u.rawQuery != "" && u.fragment == "" ==> HasSuffix(r, "?" + u.rawQuery)
    ensures u.fragment != "" ==> HasSuffix(r, "#" + u.fragment)
  {
    var authority :=
      if (u.scheme != "" || u.host != "") && (u.host != "" || u.path != "") then "//" + u.host else "";
    var slash := if u.path != "" && u.path[0] != '/' && u.host != "" then "/" else "";
    (if u.scheme != "" then u.scheme + ":" else "")
    + authority + slash + u.path
    + (if u.rawQuery != "" then "?" + u.rawQuery else "")
    + (if u.fragment != "" then "#" + u.fragment else "")
  }

  /** `Scheme + "://" + Host + Path`: the query-less form exclusion prefixes
      are matched against. */
  function SchemeHostPath(u: Url): string {
    u.scheme + "://" + u.host + u.path
  }
}

=== FILE: wrappers.dfy ===
/** Failure-compatible result types used throughout the model. */
module Wrappers {

  /** A value that may be absent: the model's stand-in for Go's `(T, error)`
      returns whose error carries no information we use. */
  datatype Option<+T> = None | Some(value: T) {
    predicate IsFailure() {
      None?
    }

    function PropagateFailure<U>(): Option<U>
      requires None?
    {
      None
    }

    function Extract(): T
      requires Some?
    {
      value
    }
  }

  /** Either a value or an error describing why there is none. */
  datatype Result<+R, +E> = Success(value: R) | Failure(error: E) {
    predicate IsFailure() {
      Failure?
    }

    function PropagateFailure<U>(): Result<U, E>
      requires Failure?
    {
      Failure(error)
    }

    function Extract(): R
      requires Success?
    {
      value
    }
  }
}
